=== FILE: README.md ===
# ethereum-multicall, modelled in Dafny

`ethereum-multicall` batches many read-only contract calls into one call to an
on-chain aggregator contract (Multicall/Multicall3) and hands the answers back
keyed by the caller's references. This project models its engine, the `Multicall`
class, and the network enumeration it resolves aggregator addresses from:

- **construction** — which client the options select (web3 instance, ethers provider
  or JSON-RPC node URL, in that order of precedence), and the error when none is given;
- **flattening** — `buildAggregateCallContext` turns the groups of calls (one group per
  contract) into one batch, in group-major order, each entry tagged with its group index
  and its index within the group, and `mapCallContextToMatchContractFormat` projects the
  batch onto the `(target, callData)` pairs the aggregator takes;
- **execution** — `execute`, `executeWithWeb3` and `executeWithEthersOrCustom`: the chain
  id of the transport, the aggregator address for it (`getContractBasedOnNetwork`, with
  the custom-address override), the pinned block, and the strict (`aggregate`) or
  tolerant (`tryBlockAndAggregate`) entry point;
- **regrouping** — `buildUpAggregateResponse` walks the reply and puts slot i into the
  bucket of call i's group, opening buckets in order of first appearance;
- **unpacking** — the two loops of `call`: each slot is decoded against the output types
  found in the group's ABI (`findOutputTypesFromAbi`, `formatReturnValues`,
  `getReturnDataFromResult`), or kept as raw bytes, or marked failed, and every group's
  entry is stored under its reference.

The node, the aggregator contract and the ABI coder are parameters: `Multicall.Chain`
(chain id, the two entry points) and `Abi.Codec` (ABI parsing, function encoding,
the interface's function table, decoding) are records of functions that may fail, so
every property holds for every behaviour they might have. The codec sees each ABI entry
whole: besides the `name` and `outputs` the engine reads itself, an `Abi.AbiItem` carries
the rest of the entry (type, inputs, state mutability) as JSON text, and each
`Abi.AbiOutput` carries, besides its name and type, the rest of the output object (the
`components` of a tuple, `internalType`) as JSON text, so the decoder sees the output types
whole too. Options are read
as they were given to the constructor, and the request as it was passed to `call`. A
thrown exception is a `Failure` of the `Values.Result` type, and `Values.Error` names
each throw site.

Module layout: `Values` (results, values, the first-failure fold), `Text` (JavaScript
`trim`), `Abi`, `Models` (the request, intermediate and response shapes), `Networks`,
`Registry`, `Construction`, `Flatten`, `Regroup`, `Routing` (the regrouping invariant for a
flattened batch), `Unpack`, and `Multicall` (execute, call, and the end-to-end theorems).

Error outcomes and edge cases, as the code behaves:

- An unparsable ABI and an unencodable call are told apart (`AbiParseError(g)` and
  `EncodingError(g, m)`); both abort `call` before anything is sent, even for an ABI of a
  group without calls, since the interface is built before the inner loop.
- A revert of the strict `aggregate` entry point is whatever error the chain returns;
  no error of the engine's own stands for it.
- A reply with more slots than calls reads `calls[i]` past the end, which throws in the
  code; the model reports it as `MalformedReply`.
- `getContractBasedOnNetwork` switches over many more network names than the `Networks`
  enumeration declares. The undeclared names compare against `undefined`, so they never
  match a numeric chain id: only the 17 declared chain ids resolve without an override,
  and every other id fails with `UnsupportedNetwork(id)`.

## Model

| member | source | states |
|---|---|---|
| Values.CollectAll | src/multicall.ts:156-254 | A loop whose steps may throw yields every step's value, in order, exactly when no step throws; otherwise it throws the error of the first step that throws, every earlier step having succeeded. |
| Text.TrimStartKeepsSuffix | src/multicall.ts:339 | Trimming the start leaves a suffix of the string, everything removed is white space, and the result is empty or starts with a non-white-space character. |
| Text.TrimEndKeepsPrefix | src/multicall.ts:339 | Trimming the end leaves a prefix of the string, everything removed is white space, and the result is empty or ends with a non-white-space character. |
| Text.TrimKeepsMiddle | src/multicall.ts:339 | `trim` keeps a contiguous middle of the string, drops only white space from the two ends, and leaves a string that neither starts nor ends with white space. |
| Text.TrimFixedPoint | src/multicall.ts:339 | A string is unchanged by `trim` exactly when it is empty or starts and ends with a non-white-space character. |
| Text.TrimIdempotent | src/multicall.ts:339-345 | Trimming a trimmed name changes nothing, so the already-trimmed method name compares against each trimmed ABI name as is. |
| Abi.FirstMatchFrom | src/multicall.ts:344-348 | The scan finds the first ABI item at or after the start whose trimmed name equals the method name, and finds nothing exactly when no later item has that name. |
| Abi.FindOutputTypesFromAbi | src/multicall.ts:331-351 | The method name is trimmed; an entry of the parsed interface's function table for it answers; otherwise the outputs of the first ABI item whose trimmed name equals it, absent outputs included; with no such item, none. |
| Abi.FindOutputTypesPrefersTable | src/multicall.ts:339-342 | When the parsed interface's function table has the trimmed method name, its outputs are the answer, whatever the ABI items say. |
| Abi.FindOutputTypesFirstMatch | src/multicall.ts:339-348 | Otherwise the answer is the outputs of the first ABI item whose trimmed name equals the trimmed method name, absent outputs included. |
| Abi.FindOutputTypesNoMatch | src/multicall.ts:339-350 | With no table entry and no ABI item of that name, there are no output types. |
| Abi.FormatReturnValues | src/multicall.ts:277-288 | A single decoded value that is itself a list is unwrapped to that list; a single value of any other kind stays a one-element list; any other decoded list is returned unchanged. |
| Networks.NetworkOfChainId | src/enums/networks.ts:1-19 | A chain id that reads as an enumeration member is the id that member declares; one that reads as an undeclared network carries that id. |
| Networks.OtherExactlyWhenUndeclared | src/enums/networks.ts:1-19 | A chain id reads as an undeclared network exactly when no member of the enumeration declares it. |
| Networks.ChainIdRoundTrip | src/enums/networks.ts:1-19 | Reading back the chain id a member declares gives that member. |
| Networks.DeclaredChainIdsDistinct | src/enums/networks.ts:1-19 | No two members of the enumeration declare the same chain id. |
| Registry.ResolveAggregator | src/multicall.ts:542-643 | A non-empty custom address wins on every network; otherwise a network the switch names resolves and any other fails with `UnsupportedNetwork` carrying its chain id; the zkSync networks get the zkSync deployment. |
| Registry.GetContractBasedOnNetwork | src/multicall.ts:542-643 | For a numeric chain id: the override wins; an id the enumeration does not declare fails with `UnsupportedNetwork(id)`; a declared id resolves, to the Etherlite deployment for 111 and to the Multicall3 deployment otherwise. |
| Registry.DeclaredNetworksResolve | src/multicall.ts:548-636 | Every network the enumeration declares has an aggregator in the switch. |
| Construction.SelectExecutionType | src/multicall.ts:113-127 | The web3 instance wins over the ethers provider, which wins over the node URL; none of the three selects nothing. |
| Construction.NewMulticall | src/multicall.ts:107-131 | Construction fails with `InvalidConfiguration` exactly when the options give no client; otherwise the options are kept and the selected client is one they supply. |
| Construction.TransportOf | src/multicall.ts:357-437 | The web3 path uses the given web3 instance; the ethers path uses the given provider, or a JSON-RPC provider for the non-empty node URL; with the options as they were at construction, the default-provider fallback is never reached. |
| Flatten.EncodeGroupCalls | src/multicall.ts:305-320 | The inner loop emits one entry per call from the start index, tagged with the group and method index, targeting the group's address with the call's encoding; it fails exactly when some call does not encode, with the first such call's error. |
| Flatten.EncodingFailureIsFirst | src/multicall.ts:301-312 | A call that does not encode, in a group whose ABI parsed, is the first failure of the flattening from that group on. |
| Flatten.PrependGroup | src/multicall.ts:299-321 | Group g's encoded calls followed by the flattening of the later groups are the flattening from g: each entry at its group-major position, and every group from g on encodes. |
| Flatten.BuildFrom | src/multicall.ts:299-321 | The outer loop from group g emits the calls of groups g onward, each at its group-major position; it fails exactly when some later group's ABI does not parse or a call does not encode, with the first failure's error. |
| Flatten.BuildAggregateCallContext | src/multicall.ts:294-324 | On success entry k is the call at group-major position k, tagged with its group and method index and encoded by its group's interface; it fails exactly when some ABI does not parse or some call does not encode, reporting the first failure in loop order. |
| Flatten.PositionUnique | src/multicall.ts:299-321 | Distinct calls occupy distinct batch positions. |
| Flatten.TaggedOrder | src/multicall.ts:299-321 | Group indices never decrease along the batch, and within a group the method indices increase. |
| Flatten.TaggedCovers | src/multicall.ts:299-321 | Call m of group g is in the batch, at position CallsBefore(g) + m, tagged (g, m). |
| Flatten.EmptyGroupContributesNothing | src/multicall.ts:305 | A group without calls has no entry in the batch. |
| Flatten.MapCallContextToMatchContractFormat | src/multicall.ts:516-528 | The payload has one pair per batch entry, in order, with the entry's target and encoded data. |
| Flatten.AggregatorPayload | src/multicall.ts:294-324 | The payload pair at position CallsBefore(g) + m targets group g's address with the encoding of its call m. |
| Regroup.GroupOrder | src/multicall.ts:487-507 | The reference order of buckets: each group index among the first n calls once, and exactly those. |
| Regroup.RoutedSource | src/multicall.ts:487-507 | Every slot routed to a group came from a position whose call carries that group index, paired with that call's method index. |
| Regroup.BucketOf | src/multicall.ts:488-490 | `find` returns the first bucket whose group index is the one sought, every earlier bucket having another. |
| Regroup.AddSlot | src/multicall.ts:488-506 | The find-then-push step appends the slot to the bucket of its group, or opens a new bucket at the end when there is none; no other bucket changes and one slot is added in total. |
| Regroup.AddSlotRoutes | src/multicall.ts:487-507 | One more iteration keeps the loop invariant: buckets in first-appearance order, each holding exactly the slots routed to its group so far. |
| Regroup.AddSlotKeys | src/multicall.ts:487-507 | The first half of that invariant: after one more slot the buckets' group indices are the first-appearance order of one more call. |
| Regroup.AddSlotBuckets | src/multicall.ts:487-507 | The second half: after one more slot every bucket holds exactly the slots routed to its group so far. |
| Regroup.ExistingBucketStep | src/multicall.ts:491-495 | A bucket that existed before the slot gains it exactly when the slot's call carries its group index, which is what routing one more slot asks. |
| Regroup.NewBucketStep | src/multicall.ts:496-505 | A bucket opened for the slot holds that slot alone, which is the routing of one more slot to a group seen for the first time. |
| Regroup.NewGroupRouted | src/multicall.ts:487-507 | A group first seen at the last slot is routed that slot alone. |
| Regroup.RegroupPrefix | src/multicall.ts:487-507 | After n slots the buckets are the groups seen, in first-appearance order, each holding its routed slots in slot order, and n slots in all. |
| Regroup.BuildUpAggregateResponse | src/multicall.ts:478-510 | Success exactly when the reply has no more slots than calls; then the block number is kept, buckets come in first-appearance order, each holds exactly its group's slots with their method indices, and no slot is lost or duplicated. |
| Routing.RoutedInBatch | src/multicall.ts:487-507 | For a flattened batch, the slots routed to a group among the first n are those at its calls' positions, in method order. |
| Routing.GroupOrderMembers | src/multicall.ts:487-507 | For a flattened batch, a group gets a bucket within the first n slots exactly when it has calls and its first call lies below n. |
| Routing.MemberOwnsEarlyCall | src/multicall.ts:487-507 | One direction of that: a group index among the buckets names a group with calls whose first call lies below n. |
| Routing.EarlyCallOwnerMember | src/multicall.ts:487-507 | The other direction: a group whose first call lies below n has a bucket. |
| Routing.GroupOrderIncreasing | src/multicall.ts:487-507 | For a flattened batch, buckets come in increasing group order. |
| Routing.SlotRoutesToItsCall | src/multicall.ts:478-510 | For a flattened batch and a reply with one slot per call, regrouping succeeds, bucket j holds call m's slot at position CallsBefore + m for each call m of its group, buckets are in increasing group order, and exactly the groups with calls get one. |
| Unpack.GetReturnDataFromResult | src/multicall.ts:264-270 | The bytes are the slot itself in strict mode and its `returnData` in tolerant mode. |
| Unpack.UnpackSlot | src/multicall.ts:181-248 | A reverted slot in tolerant mode gives a failed, undecoded, empty entry; otherwise output types decode the bytes into formatted values, or, when none are found, the raw bytes are kept; an undecodable slot throws `DecodeError` in strict mode and gives a failed entry in tolerant mode; every entry echoes the call's reference, method name and parameters. |
| Unpack.UnpackGroup | src/multicall.ts:161-249 | A group's entry keeps the original group and has, for each method result in order, the slot unpacked against the call it names; it fails exactly when some slot throws, with the first such error. |
| Unpack.StoreByReference | src/multicall.ts:251-253 | The results hold a key exactly for each group's reference, and a reference shared by several groups keeps the last group's entry. |
| Unpack.StoreStep | src/multicall.ts:251-253 | One assignment `results[reference] = entry` extends the store of the earlier entries: the new reference becomes a key and now holds the new entry, every other key keeps its entry. |
| Unpack.UnpackResults | src/multicall.ts:156-254 | The outer loop succeeds exactly when every bucket unpacks; otherwise it throws the error of the first bucket that throws, every earlier bucket having unpacked. |
| Unpack.UnpackResultsKeys | src/multicall.ts:251-253 | The keys of the results are exactly the references of the groups that own a bucket. |
| Unpack.TolerantNeverFails | src/multicall.ts:186-235 | In tolerant mode unpacking never throws. |
| Unpack.StrictEntriesSucceed | src/multicall.ts:201-248 | In strict mode every entry of a group that unpacked is a success echoing its call. |
| Multicall.PinnedBlock | src/multicall.ts:387-390 | The call is pinned to the given block exactly when the option is a non-empty string, and to the latest block otherwise. |
| Multicall.Reply | src/multicall.ts:391-413 | Tolerant mode asks the tolerant entry point and strict mode the strict one; the call succeeds exactly when that entry point does, each slot has the shape of its mode and carries the bytes returned, and a failure is passed on unchanged. |
| Multicall.ResolvedAddress | src/multicall.ts:380-385 | The aggregator address comes from the transport's chain id through the network table; a failure to read the chain id is passed on. |
| Multicall.SentReply | src/multicall.ts:380-413 | The batch goes to the aggregator resolved for the transport's chain (a failure to resolve is passed on), as the payload in batch order at the pinned block, through `tryBlockAndAggregate` in tolerant mode and `aggregate` in strict mode; the reply succeeds exactly when that entry point does and keeps its block number and its slots, one for each returned, in order; the ethers path (src/multicall.ts:440-469) sends the same batch. |
| Multicall.Execute | src/multicall.ts:357-470 | A chain id outside the table without an override fails with `UnsupportedNetwork(id)` before any call is made; a failure of the node or the aggregator on the batch sent (payload in batch order, at the pinned block) is passed on; a reply with more slots than calls is malformed; otherwise the block number is the reply's and the buckets are the reference routing of the reply's slots, each method result in the mode's shape and naming a call of the batch with the same group. |
| Multicall.ReplyFromBatch | src/multicall.ts:478-510 | Regrouping a reply of the mode's shape yields buckets drawn from the batch. |
| Multicall.BatchRoutable | src/multicall.ts:161-179 | For a flattened batch, every bucket names a group with calls and every method result names one of that group's calls, so the lookups of `call` are always defined. |
| Multicall.Call | src/multicall.ts:138-257 | An ABI or encoding failure stops the call before anything is sent; every key of the result is the reference of a group with calls; in tolerant mode the call succeeds exactly when execution does; the block number is the reply's. |
| Multicall.CallOutcome | src/multicall.ts:146-254 | Once the request has flattened, a failure of `execute` reaches the caller unchanged; otherwise the buckets can be unpacked and `call` succeeds exactly when unpacking does, returning its results with the reply's block number or throwing its error, in either mode; so a strict `call` succeeds exactly when every slot decodes. |
| Multicall.FullReplyRoutable | src/multicall.ts:156-179 | A reply with one slot per call, of the mode's shape, regroups into buckets that unpacking can read. |
| Multicall.FullReplyEntries | src/multicall.ts:138-257 | For a reply with one slot per call, a group with calls whose reference no other group with calls shares has an entry under its reference, holding the group and, for each call k in order, the slot at its batch position unpacked against call k. |
| Multicall.CallAnswersEveryCall | src/multicall.ts:138-257 | End to end: when the aggregator answers every sub-call and `call` succeeds, the batch sent got one slot per call, and each uniquely referenced group with calls gets an entry holding the group and, for each call k in order, the reply's slot at the group's batch position CallsBefore(g) + k unpacked against call k (return values, decoded flag and success as `Unpack.UnpackSlot` states), echoing the call, all of them successes in strict mode. |

## Left out

- The node and the aggregator contract: `Multicall.Chain` is a parameter, so network I/O,
  `await`, the ethers and web3 contract objects and the `Multicall.ABI` constant are not modelled.
- The ABI coder: `Abi.Codec` stands for `ethers.utils.Interface`, `encodeFunctionData`,
  the interface's `functions` table and `defaultAbiCoder.decode`; their concrete encodings
  are not modelled.
- `findOutputTypesFromAbi` also builds an `ethers.Contract` from the ABI; that parse cannot
  fail here, since `buildAggregateCallContext` has parsed the same ABI before any slot is
  unpacked, so the model does not give it an error path.
- `BigNumber.from` and `toNumber` on the block number: block numbers are unbounded
  naturals, so the precision limit of JavaScript numbers is not modelled.
- The `blockHash` that `tryBlockAndAggregate` returns is dropped, as the code drops it.
- `Number(options.blockNumber)` on the ethers path: the block tag is passed on as the given
  string; a tag that does not parse as a number is not modelled.
- `Utils.deepClone`: values are immutable, so copies and originals are the same value.
- The `default` branch of `execute`: construction always selects one of the three clients,
  so it cannot be reached (`Construction.TransportOf` states this).
- The network names in the switch that the enumeration does not declare: they can never
  match a numeric chain id, so the table resolves them but no chain id reaches them.
- `Multicall.Call`: its own contract states the keys, the block number and the
  tolerant-mode success condition; in either mode its outcome against `execute` and
  unpacking (the strict-mode success condition, and a failure of `execute` passed on) is
  stated by `Multicall.CallOutcome`. The contents of each entry, against the slots of
  the reply at the group's batch positions, are stated by `Multicall.CallAnswersEveryCall`
  only for a reply with one slot per call and a group whose reference no other group with
  calls shares (otherwise the later group overwrites it, as `Unpack.StoreByReference`
  states); for a shorter reply they are what `Unpack.UnpackResults` makes of the buckets.
- `Multicall.Execute`: states the buckets as the reference routing of the reply; that a
  flattened batch sends each call back its own slot is stated by `Routing.SlotRoutesToItsCall`.
- Aliasing of the options and of the request: the code keeps a reference to the caller's
  options object and reads `tryAggregate`, the custom address and the providers again on
  every call, and reads the request again after the aggregate call returns. The model
  takes the options as they were at construction and the request as passed to `call`; a
  caller that changes either while a call is in flight (for instance clearing both
  `ethersProvider` and `nodeUrl`, which would reach `ethers.getDefaultProvider()`) is not
  modelled.
- The compiled JavaScript bundle, the TypeScript model interfaces (beyond the shapes in
  `Models`) and the utilities other than the ones above are not part of this model.

=== FILE: abi.dfy ===
/** ABI descriptors, the part of the ethers library the engine calls, the output-type
    lookup used to decide whether a reply can be decoded, and the normalisation of
    decoded tuples. */
module Abi {
  import opened Values
  import Text

  /** One output of an ABI function: its name and type, and in `descriptor` the rest
      of the output object (`components` of a tuple, `internalType`) as JSON text,
      which only the decoder interprets. */
  datatype AbiOutput = AbiOutput(name: string, typ: string, descriptor: string)

  /** One entry of a contract ABI. The engine itself reads `name` and `outputs`,
      both of which may be missing in a hand-written ABI; `descriptor` is the rest
      of the entry (type, inputs, state mutability) as JSON text, which only the
      ethers calls below interpret. */
  datatype AbiItem = AbiItem(name: Option<string>, outputs: Option<seq<AbiOutput>>, descriptor: string)

  /** The ethers calls the engine makes, left uninterpreted. Each may fail.
      - interfaceParses: `new Interface(abi)` does not throw;
      - encodeFunctionData: `Interface.encodeFunctionData(methodName, parameters)`;
      - functionOutputs: the outputs of `contract.interface.functions[name]`, when that entry exists;
      - decode: `defaultAbiCoder.decode(outputTypes, data)`. */
  datatype Codec = Codec(
    interfaceParses: seq<AbiItem> -> bool,
    encodeFunctionData: (seq<AbiItem>, string, seq<Value>) -> Option<Bytes>,
    functionOutputs: (seq<AbiItem>, string) -> Option<seq<AbiOutput>>,
    decode: (seq<AbiOutput>, Bytes) -> Option<seq<Value>>)

  /** The item's name, trimmed, equals `name`; an item without a name matches nothing. */
  predicate NameMatches(item: AbiItem, name: string) {
    item.name.Some? && Text.Trim(item.name.value) == name
  }

  /** The index of the first item at or after `from` whose trimmed name is `name`. */
  function FirstMatchFrom(abi: seq<AbiItem>, name: string, from: nat): (r: Option<nat>)
    requires from <= |abi|
    ensures r.Some? ==> from <= r.value < |abi| && NameMatches(abi[r.value], name)
    ensures r.Some? ==> forall i :: from <= i < r.value ==> !NameMatches(abi[i], name)
    ensures r.None? ==> forall i :: from <= i < |abi| ==> !NameMatches(abi[i], name)
    decreases |abi| - from
  {
    if from == |abi| then None
    else if NameMatches(abi[from], name) then Some(from)
    else FirstMatchFrom(abi, name, from + 1)
  }

  /** The fallback scan: the outputs of the first item named `name`, or nothing
      when no item has that name. */
  function FallbackOutputTypes(abi: seq<AbiItem>, name: string): (r: Option<seq<AbiOutput>>)
  {
    match FirstMatchFrom(abi, name, 0)
    case Some(k) => abi[k].outputs
    case None => None
  }

  /** The output types of `methodName`: the method name is trimmed, the ethers
      function table is consulted first, and the ABI is scanned otherwise. */
  function FindOutputTypesFromAbi(codec: Codec, abi: seq<AbiItem>, methodName: string): (r: Option<seq<AbiOutput>>)
    ensures codec.functionOutputs(abi, Text.Trim(methodName)).Some? ==>
              r == codec.functionOutputs(abi, Text.Trim(methodName))
    ensures codec.functionOutputs(abi, Text.Trim(methodName)).None? ==>
              forall k :: 0 <= k < |abi| && NameMatches(abi[k], Text.Trim(methodName))
                          && (forall i :: 0 <= i < k ==> !NameMatches(abi[i], Text.Trim(methodName))) ==>
                r == abi[k].outputs
    ensures codec.functionOutputs(abi, Text.Trim(methodName)).None?
            && (forall i :: 0 <= i < |abi| ==> !NameMatches(abi[i], Text.Trim(methodName))) ==>
              r == None
  {
    var name := Text.Trim(methodName);
    match codec.functionOutputs(abi, name)
    case Some(outputs) => Some(outputs)
    case None => FallbackOutputTypes(abi, name)
  }

  /** When the ethers table has no entry, the lookup returns the outputs of the
      earliest ABI item whose trimmed name is the trimmed method name. */
  lemma FindOutputTypesFirstMatch(codec: Codec, abi: seq<AbiItem>, methodName: string, k: nat)
    requires codec.functionOutputs(abi, Text.Trim(methodName)).None?
    requires k < |abi| && NameMatches(abi[k], Text.Trim(methodName))
    requires forall i :: 0 <= i < k ==> !NameMatches(abi[i], Text.Trim(methodName))
    ensures FindOutputTypesFromAbi(codec, abi, methodName) == abi[k].outputs
  {
    var name := Text.Trim(methodName);
    var f := FirstMatchFrom(abi, name, 0);
    assert f.Some?;
  }

  /** When neither the ethers table nor any ABI item knows the method, there are no output types. */
  lemma FindOutputTypesNoMatch(codec: Codec, abi: seq<AbiItem>, methodName: string)
    requires codec.functionOutputs(abi, Text.Trim(methodName)).None?
    requires forall i :: 0 <= i < |abi| ==> !NameMatches(abi[i], Text.Trim(methodName))
    ensures FindOutputTypesFromAbi(codec, abi, methodName) == None
  {
    var f := FirstMatchFrom(abi, Text.Trim(methodName), 0);
    assert f.None?;
  }

  /** An entry in the ethers table takes precedence over the scan. */
  lemma FindOutputTypesPrefersTable(codec: Codec, abi: seq<AbiItem>, methodName: string)
    requires codec.functionOutputs(abi, Text.Trim(methodName)).Some?
    ensures FindOutputTypesFromAbi(codec, abi, methodName) == codec.functionOutputs(abi, Text.Trim(methodName))
  {
  }

  /** Decoding is attempted only when the lookup produced a non-empty list of output types. */
  predicate WantsDecoding(outputTypes: Option<seq<AbiOutput>>) {
    outputTypes.Some? && |outputTypes.value| > 0
  }

  /** The decoded tuple as a list: a one-element tuple is replaced by its element,
      which is spread if it is itself a list and wrapped otherwise. */
  function FormatReturnValues(decoded: seq<Value>): (r: seq<Value>)
    ensures r != decoded ==> |decoded| == 1 && decoded[0].List? && r == decoded[0].items
    ensures |decoded| == 1 && decoded[0].List? ==> decoded == [List(r)]
    ensures |decoded| == 1 && !decoded[0].List? ==> r == decoded
  {
    if |decoded| == 1 then
      match decoded[0]
      case List(items) => items
      case _ => [decoded[0]]
    else decoded
  }
}

=== FILE: construction.dfy ===
/** Building a `Multicall`: the constructor picks one execution type from the
    options, and each aggregate call is routed to the transport that type names. */
module Construction {
  import opened Values
  import opened Models

  datatype ExecutionType = Web3 | Ethers | CustomHttp

  /** The constructor's precedence: a web3 instance, then an ethers provider,
      then a non-empty node URL; nothing when none of them is given. */
  function SelectExecutionType(options: MulticallOptions): (r: Option<ExecutionType>)
    ensures r == Some(Web3) <==> options.web3Instance.Some?
    ensures r == Some(Ethers) <==> options.web3Instance.None? && options.ethersProvider.Some?
    ensures r == Some(CustomHttp) <==>
              options.web3Instance.None? && options.ethersProvider.None? && HasText(options.nodeUrl)
    ensures r.None? <==>
              options.web3Instance.None? && options.ethersProvider.None? && !HasText(options.nodeUrl)
  {
    if options.web3Instance.Some? then Some(Web3)
    else if options.ethersProvider.Some? then Some(Ethers)
    else if HasText(options.nodeUrl) then Some(CustomHttp)
    else None
  }

  datatype MulticallInstance = MulticallInstance(options: MulticallOptions, executionType: ExecutionType)

  /** The execution type agrees with the options, as the constructor leaves it. */
  predicate Constructed(m: MulticallInstance) {
    SelectExecutionType(m.options) == Some(m.executionType)
  }

  /** The constructor: it fails exactly when no transport is configured, and a
      built object carries the options unchanged with the type they select. */
  function NewMulticall(options: MulticallOptions): (r: Result<MulticallInstance>)
    ensures r.Success? <==>
              options.web3Instance.Some? || options.ethersProvider.Some? || HasText(options.nodeUrl)
    ensures r.Failure? ==> r.error == InvalidConfiguration
    ensures r.Success? ==> r.value.options == options && Constructed(r.value)
  {
    match SelectExecutionType(options)
    case Some(t) => Success(MulticallInstance(options, t))
    case None => Failure(InvalidConfiguration)
  }

  /** The client an aggregate call goes through. */
  datatype Transport =
    | Web3Client(instance: Handle)
    | EthersProvider(provider: Handle)
    | JsonRpcProvider(url: string)
    | DefaultProvider

  /** `execute`'s switch followed by the provider choice of the ethers path. For a
      constructed object the switch has no fall-through case and the ethers path
      never needs the default provider. */
  function TransportOf(m: MulticallInstance): (t: Transport)
    requires Constructed(m)
    ensures !t.DefaultProvider?
    ensures t.Web3Client? <==> m.executionType == Web3
    ensures t.Web3Client? ==> m.options.web3Instance == Some(t.instance)
    ensures t.EthersProvider? <==> m.executionType == Ethers
    ensures t.EthersProvider? ==> m.options.ethersProvider == Some(t.provider)
    ensures t.JsonRpcProvider? ==> m.options.nodeUrl == Some(t.url) && t.url != ""
  {
    match m.executionType
    case Web3 => Web3Client(m.options.web3Instance.value)
    case Ethers | CustomHttp =>
      match m.options.ethersProvider
      case Some(provider) => EthersProvider(provider)
      case None =>
        match m.options.nodeUrl
        case Some(url) => if url != "" then JsonRpcProvider(url) else DefaultProvider
        case None => DefaultProvider
  }
}

=== FILE: flatten.dfy ===
/** Flattening: the groups' calls become one ordered batch, each entry tagged with
    its group index and its index within that group, and then the `(target, callData)`
    list sent to the aggregator. */
module Flatten {
  import opened Values
  import opened Abi
  import opened Models

  /** The number of calls in the groups before group `g`: the batch position of group g's first call. */
  function CallsBefore(groups: seq<ContractCallContext>, g: nat): nat
    requires g <= |groups|
  {
    if g == 0 then 0 else CallsBefore(groups, g - 1) + |groups[g - 1].calls|
  }

  function TotalCalls(groups: seq<ContractCallContext>): nat {
    CallsBefore(groups, |groups|)
  }

  /** Call `m` of the group encodes against the group's ABI. */
  predicate Encodes(codec: Codec, group: ContractCallContext, m: nat)
    requires m < |group.calls|
  {
    codec.encodeFunctionData(group.abi, group.calls[m].methodName, group.calls[m].methodParameters).Some?
  }

  /** The group's ABI parses and every one of its calls encodes. */
  predicate GroupEncodes(codec: Codec, group: ContractCallContext) {
    && codec.interfaceParses(group.abi)
    && forall m :: 0 <= m < |group.calls| ==> Encodes(codec, group, m)
  }

  /** Entry `e` stands for call `contractMethodIndex` of group `contractContextIndex`,
      both in range, sits at batch position `pos`, and targets that group's contract. */
  predicate Placed(groups: seq<ContractCallContext>, e: AggregateCallContext, pos: nat) {
    && e.contractContextIndex < |groups|
    && e.contractMethodIndex < |groups[e.contractContextIndex].calls|
    && CallsBefore(groups, e.contractContextIndex) + e.contractMethodIndex == pos
    && e.target == groups[e.contractContextIndex].contractAddress
  }

  /** The entry's payload is what the codec makes of the call it stands for. */
  predicate EncodedBy(codec: Codec, groups: seq<ContractCallContext>, e: AggregateCallContext)
    requires e.contractContextIndex < |groups|
    requires e.contractMethodIndex < |groups[e.contractContextIndex].calls|
  {
    var group := groups[e.contractContextIndex];
    var call := group.calls[e.contractMethodIndex];
    codec.encodeFunctionData(group.abi, call.methodName, call.methodParameters) == Some(e.encodedData)
  }

  /** A batch holds one entry per call of the groups and entry k stands for the call at position k. */
  predicate Tagged(groups: seq<ContractCallContext>, calls: seq<AggregateCallContext>) {
    && |calls| == TotalCalls(groups)
    && forall k :: 0 <= k < |calls| ==> Placed(groups, calls[k], k)
  }

  /** `err` reports the first failure met when groups `g..` are flattened in order:
      either group h's ABI does not parse, or call m of group h does not encode,
      with everything before it fine. */
  predicate FirstFlattenFailure(codec: Codec, groups: seq<ContractCallContext>, g: nat, err: Error) {
    match err
    case AbiParseError(h) =>
      && g <= h < |groups|
      && !codec.interfaceParses(groups[h].abi)
      && forall i :: g <= i < h ==> GroupEncodes(codec, groups[i])
    case EncodingError(h, m) =>
      && g <= h < |groups|
      && m < |groups[h].calls|
      && codec.interfaceParses(groups[h].abi)
      && !Encodes(codec, groups[h], m)
      && (forall i :: g <= i < h ==> GroupEncodes(codec, groups[i]))
      && forall j :: 0 <= j < m ==> Encodes(codec, groups[h], j)
    case _ => false
  }

  /** The inner loop: encodes calls `m..` of group `g`. */
  function EncodeGroupCalls(codec: Codec, group: ContractCallContext, g: nat, m: nat): (r: Result<seq<AggregateCallContext>>)
    requires m <= |group.calls|
    ensures r.Success? ==> |r.value| == |group.calls| - m
    ensures r.Success? ==> forall k :: 0 <= k < |r.value| ==>
              && r.value[k].contractContextIndex == g
              && r.value[k].contractMethodIndex == m + k
              && r.value[k].target == group.contractAddress
              && codec.encodeFunctionData(group.abi, group.calls[m + k].methodName, group.calls[m + k].methodParameters)
                   == Some(r.value[k].encodedData)
    ensures r.Success? <==> forall j :: m <= j < |group.calls| ==> Encodes(codec, group, j)
    ensures r.Failure? ==>
              && r.error.EncodingError?
              && r.error.contractContextIndex == g
              && m <= r.error.contractMethodIndex < |group.calls|
              && !Encodes(codec, group, r.error.contractMethodIndex)
              && forall j :: m <= j < r.error.contractMethodIndex ==> Encodes(codec, group, j)
    decreases |group.calls| - m
  {
    if m == |group.calls| then Success([])
    else
      var call := group.calls[m];
      match codec.encodeFunctionData(group.abi, call.methodName, call.methodParameters)
      case None =>
        assert !Encodes(codec, group, m);
        Failure(EncodingError(g, m))
      case Some(encodedData) =>
        var rest :- EncodeGroupCalls(codec, group, g, m + 1);
        Success([AggregateCallContext(g, m, group.contractAddress, encodedData)] + rest)
  }

  /** Group g's encoded calls followed by the flattening of the groups after it
      flatten groups `g..`. */
  lemma PrependGroup(codec: Codec, groups: seq<ContractCallContext>, g: nat,
                     here: seq<AggregateCallContext>, rest: seq<AggregateCallContext>)
    requires g < |groups| && codec.interfaceParses(groups[g].abi)
    requires EncodeGroupCalls(codec, groups[g], g, 0) == Success(here)
    requires |rest| == TotalCalls(groups) - CallsBefore(groups, g + 1)
    requires forall k :: 0 <= k < |rest| ==>
              Placed(groups, rest[k], CallsBefore(groups, g + 1) + k) && EncodedBy(codec, groups, rest[k])
    requires forall h :: g + 1 <= h < |groups| ==> GroupEncodes(codec, groups[h])
    ensures |here + rest| == TotalCalls(groups) - CallsBefore(groups, g)
    ensures forall k :: 0 <= k < |here + rest| ==>
              Placed(groups, (here + rest)[k], CallsBefore(groups, g) + k) && EncodedBy(codec, groups, (here + rest)[k])
    ensures forall h :: g <= h < |groups| ==> GroupEncodes(codec, groups[h])
  {
    assert GroupEncodes(codec, groups[g]);
    AppendPlaced(codec, groups, g, here, rest);
  }

  /** The outer loop: flattens groups `g..`; a group's ABI is parsed before its calls are encoded. */
  function BuildFrom(codec: Codec, groups: seq<ContractCallContext>, g: nat): (r: Result<seq<AggregateCallContext>>)
    requires g <= |groups|
    ensures r.Success? ==> |r.value| == TotalCalls(groups) - CallsBefore(groups, g)
    ensures r.Success? ==> forall k :: 0 <= k < |r.value| ==>
              Placed(groups, r.value[k], CallsBefore(groups, g) + k) && EncodedBy(codec, groups, r.value[k])
    ensures r.Success? <==> forall h :: g <= h < |groups| ==> GroupEncodes(codec, groups[h])
    ensures r.Failure? ==> FirstFlattenFailure(codec, groups, g, r.error)
    decreases |groups| - g
  {
    if g == |groups| then Success([])
    else if !codec.interfaceParses(groups[g].abi) then Failure(AbiParseError(g))
    else
      match EncodeGroupCalls(codec, groups[g], g, 0)
      case Failure(e) =>
        EncodingFailureIsFirst(codec, groups, g);
        Failure(e)
      case Success(here) =>
        match BuildFrom(codec, groups, g + 1)
        case Failure(e) =>
          assert GroupEncodes(codec, groups[g]);
          FirstFlattenFailureExtends(codec, groups, g, e);
          Failure(e)
        case Success(rest) =>
          PrependGroup(codec, groups, g, here, rest);
          Success(here + rest)
  }

  /** A call of group g that does not encode, after g's ABI parsed, is the first
      failure of the flattening from g on, and group g does not encode. */
  lemma EncodingFailureIsFirst(codec: Codec, groups: seq<ContractCallContext>, g: nat)
    requires g < |groups| && codec.interfaceParses(groups[g].abi)
    requires EncodeGroupCalls(codec, groups[g], g, 0).Failure?
    ensures FirstFlattenFailure(codec, groups, g, EncodeGroupCalls(codec, groups[g], g, 0).error)
    ensures !GroupEncodes(codec, groups[g])
  {
    var e := EncodeGroupCalls(codec, groups[g], g, 0).error;
    assert !Encodes(codec, groups[g], e.contractMethodIndex);
  }

  lemma FirstFlattenFailureExtends(codec: Codec, groups: seq<ContractCallContext>, g: nat, e: Error)
    requires g < |groups| && GroupEncodes(codec, groups[g])
    requires FirstFlattenFailure(codec, groups, g + 1, e)
    ensures FirstFlattenFailure(codec, groups, g, e)
  {
  }

  /** Group g's entries followed by the entries of the later groups are placed from CallsBefore(g) on. */
  lemma AppendPlaced(codec: Codec, groups: seq<ContractCallContext>, g: nat,
                     here: seq<AggregateCallContext>, rest: seq<AggregateCallContext>)
    requires g < |groups|
    requires |here| == |groups[g].calls|
    requires forall k :: 0 <= k < |here| ==>
              && here[k].contractContextIndex == g
              && here[k].contractMethodIndex == k
              && here[k].target == groups[g].contractAddress
              && codec.encodeFunctionData(groups[g].abi, groups[g].calls[k].methodName, groups[g].calls[k].methodParameters)
                   == Some(here[k].encodedData)
    requires |rest| == TotalCalls(groups) - CallsBefore(groups, g + 1)
    requires forall k :: 0 <= k < |rest| ==>
              Placed(groups, rest[k], CallsBefore(groups, g + 1) + k) && EncodedBy(codec, groups, rest[k])
    ensures |here + rest| == TotalCalls(groups) - CallsBefore(groups, g)
    ensures forall k :: 0 <= k < |here + rest| ==>
              Placed(groups, (here + rest)[k], CallsBefore(groups, g) + k) && EncodedBy(codec, groups, (here + rest)[k])
  {
    var r := here + rest;
    forall k | 0 <= k < |r|
      ensures Placed(groups, r[k], CallsBefore(groups, g) + k) && EncodedBy(codec, groups, r[k])
    {
      if k < |here| {
        assert r[k] == here[k];
      } else {
        assert r[k] == rest[k - |here|];
      }
    }
  }

  /** `buildAggregateCallContext`: the batch holds exactly one correctly encoded
      entry per call, in position order; it fails exactly when some ABI does not
      parse or some call does not encode, reporting the first such failure. */
  function BuildAggregateCallContext(codec: Codec, groups: seq<ContractCallContext>): (r: Result<seq<AggregateCallContext>>)
    ensures r.Success? ==> Tagged(groups, r.value)
    ensures r.Success? ==> forall k :: 0 <= k < |r.value| ==> Placed(groups, r.value[k], k) && EncodedBy(codec, groups, r.value[k])
    ensures r.Success? <==> forall h :: 0 <= h < |groups| ==> GroupEncodes(codec, groups[h])
    ensures r.Failure? ==> FirstFlattenFailure(codec, groups, 0, r.error)
  {
    BuildFrom(codec, groups, 0)
  }

  lemma {:induction false} CallsBeforeMonotone(groups: seq<ContractCallContext>, a: nat, b: nat)
    requires a < b <= |groups|
    ensures CallsBefore(groups, a) + |groups[a].calls| <= CallsBefore(groups, b)
    decreases b - a
  {
    if a + 1 < b {
      CallsBeforeMonotone(groups, a + 1, b);
    }
  }

  /** Distinct calls have distinct batch positions. */
  lemma PositionUnique(groups: seq<ContractCallContext>, a: nat, x: nat, b: nat, y: nat)
    requires a < |groups| && x < |groups[a].calls|
    requires b < |groups| && y < |groups[b].calls|
    requires CallsBefore(groups, a) + x == CallsBefore(groups, b) + y
    ensures a == b && x == y
  {
    if a < b {
      CallsBeforeMonotone(groups, a, b);
    } else if b < a {
      CallsBeforeMonotone(groups, b, a);
    }
  }

  /** The batch is in group-major, call-minor order. */
  lemma TaggedOrder(groups: seq<ContractCallContext>, calls: seq<AggregateCallContext>, i: nat, j: nat)
    requires Tagged(groups, calls)
    requires i < j < |calls|
    ensures calls[i].contractContextIndex <= calls[j].contractContextIndex
    ensures calls[i].contractContextIndex == calls[j].contractContextIndex ==>
              calls[i].contractMethodIndex < calls[j].contractMethodIndex
  {
    assert Placed(groups, calls[i], i) && Placed(groups, calls[j], j);
    if calls[j].contractContextIndex < calls[i].contractContextIndex {
      CallsBeforeMonotone(groups, calls[j].contractContextIndex, calls[i].contractContextIndex);
    }
  }

  /** Call m of group g is in the batch, at position CallsBefore(g) + m. */
  lemma TaggedCovers(groups: seq<ContractCallContext>, calls: seq<AggregateCallContext>, g: nat, m: nat)
    requires Tagged(groups, calls)
    requires g < |groups| && m < |groups[g].calls|
    ensures CallsBefore(groups, g) + m < |calls|
    ensures calls[CallsBefore(groups, g) + m].contractContextIndex == g
    ensures calls[CallsBefore(groups, g) + m].contractMethodIndex == m
  {
    var k := CallsBefore(groups, g) + m;
    if g + 1 < |groups| {
      CallsBeforeMonotone(groups, g + 1, |groups|);
    }
    assert Placed(groups, calls[k], k);
    PositionUnique(groups, g, m, calls[k].contractContextIndex, calls[k].contractMethodIndex);
  }

  /** A group without calls contributes no entry to the batch. */
  lemma EmptyGroupContributesNothing(groups: seq<ContractCallContext>, calls: seq<AggregateCallContext>, g: nat)
    requires Tagged(groups, calls)
    requires g < |groups| && |groups[g].calls| == 0
    ensures forall k :: 0 <= k < |calls| ==> calls[k].contractContextIndex != g
  {
    forall k | 0 <= k < |calls|
      ensures calls[k].contractContextIndex != g
    {
      assert Placed(groups, calls[k], k);
    }
  }

  /** `mapCallContextToMatchContractFormat`: drops the tags. */
  function MapCallContextToMatchContractFormat(calls: seq<AggregateCallContext>): (r: seq<AggregatorCall>)
    ensures |r| == |calls|
    ensures forall k :: 0 <= k < |r| ==> r[k].target == calls[k].target && r[k].callData == calls[k].encodedData
  {
    if |calls| == 0 then []
    else [AggregatorCall(calls[0].target, calls[0].encodedData)] + MapCallContextToMatchContractFormat(calls[1..])
  }

  /** The aggregator receives, at position CallsBefore(g) + m, call m of group g:
      its group's contract address and the codec's encoding of that call. */
  lemma AggregatorPayload(codec: Codec, groups: seq<ContractCallContext>, g: nat, m: nat)
    requires BuildAggregateCallContext(codec, groups).Success?
    requires g < |groups| && m < |groups[g].calls|
    ensures var payload := MapCallContextToMatchContractFormat(BuildAggregateCallContext(codec, groups).value);
            && CallsBefore(groups, g) + m < |payload|
            && payload[CallsBefore(groups, g) + m].target == groups[g].contractAddress
            && codec.encodeFunctionData(groups[g].abi, groups[g].calls[m].methodName, groups[g].calls[m].methodParameters)
                 == Some(payload[CallsBefore(groups, g) + m].callData)
  {
    var calls := BuildAggregateCallContext(codec, groups).value;
    TaggedCovers(groups, calls, g, m);
    assert EncodedBy(codec, groups, calls[CallsBefore(groups, g) + m]);
  }
}

=== FILE: models.dfy ===
/** The request, intermediate and response shapes of one aggregate call, and the
    options a `Multicall` is built from. Field names follow the ones the engine reads. */
module Models {
  import opened Values
  import opened Abi

  /** One method call on a contract. */
  datatype CallContext = CallContext(reference: string, methodName: string, methodParameters: seq<Value>)

  /** A group of calls against one contract; `context` is caller data carried through untouched. */
  datatype ContractCallContext = ContractCallContext(
    reference: string,
    contractAddress: string,
    abi: seq<AbiItem>,
    calls: seq<CallContext>,
    context: Option<Value>)

  /** `call` accepts either one group or a list of them. */
  datatype Request = Single(group: ContractCallContext) | Batch(groups: seq<ContractCallContext>)

  function Groups(request: Request): seq<ContractCallContext> {
    match request
    case Single(group) => [group]
    case Batch(groups) => groups
  }

  /** One flattened call, tagged with the group it came from and its position in that group. */
  datatype AggregateCallContext = AggregateCallContext(
    contractContextIndex: nat,
    contractMethodIndex: nat,
    target: string,
    encodedData: Bytes)

  /** The `(target, callData)` pair the aggregator contract receives. */
  datatype AggregatorCall = AggregatorCall(target: string, callData: Bytes)

  /** One reply slot: the strict entry point returns bare bytes, the tolerant one a
      success flag with the bytes. */
  datatype RawResult = Data(bytes: Bytes) | Tried(success: bool, returnData: Bytes)

  /** The slot has the shape the chosen entry point returns. */
  predicate Shaped(tryAggregate: bool, result: RawResult) {
    if tryAggregate then result.Tried? else result.Data?
  }

  datatype MethodResult = MethodResult(contractMethodIndex: nat, result: RawResult)

  /** The reply slots of one group, in reply order. */
  datatype ContractResults = ContractResults(contractContextIndex: nat, methodResults: seq<MethodResult>)

  datatype AggregateResponse = AggregateResponse(blockNumber: nat, results: seq<ContractResults>)

  /** Decoded values are a list; undecoded data is handed back as the raw bytes. */
  datatype ReturnValues = Decoded(items: seq<Value>) | RawData(data: Bytes)

  datatype CallReturnContext = CallReturnContext(
    returnValues: ReturnValues,
    decoded: bool,
    reference: string,
    methodName: string,
    methodParameters: seq<Value>,
    success: bool)

  datatype ContractCallReturnContext = ContractCallReturnContext(
    originalContractCallContext: ContractCallContext,
    callsReturnContext: seq<CallReturnContext>)

  datatype ContractCallResults = ContractCallResults(
    results: map<string, ContractCallReturnContext>,
    blockNumber: nat)

  /** Per-call options: an optional block to read at. */
  datatype ContractCallOptions = ContractCallOptions(blockNumber: Option<string>)

  /** An injected object (a web3 instance or an ethers provider), known only by identity. */
  datatype Handle = Handle(id: nat)

  datatype MulticallOptions = MulticallOptions(
    web3Instance: Option<Handle>,
    ethersProvider: Option<Handle>,
    nodeUrl: Option<string>,
    multicallCustomContractAddress: Option<string>,
    tryAggregate: bool)
}

=== FILE: multicall.dfy ===
/** The aggregate call: `execute` resolves the aggregator, sends the flattened batch
    through one entry point and regroups the reply; `call` flattens the request,
    executes it and unpacks the reply into entries keyed by reference. */
module Multicall {
  import opened Values
  import opened Abi
  import opened Models
  import opened Networks
  import opened Registry
  import opened Construction
  import opened Flatten
  import opened Regroup
  import opened Routing
  import opened Unpack

  /** The node and the aggregator contract, left uninterpreted. Each may fail.
      - chainIdOf: the chain id the transport reports (`eth.net.getId()` or `getNetwork().chainId`);
      - aggregate: the strict entry point at an address, a batch and an optional block
        tag, returning the block number and one buffer per sub-call;
      - tryBlockAndAggregate: the tolerant entry point, called with requireSuccess
        false, returning the block number and a success flag and buffer per sub-call. */
  datatype Chain = Chain(
    chainIdOf: Transport -> Result<nat>,
    aggregate: (Transport, string, seq<AggregatorCall>, Option<string>) -> Result<(nat, seq<Bytes>)>,
    tryBlockAndAggregate: (Transport, string, seq<AggregatorCall>, Option<string>) -> Result<(nat, seq<(bool, Bytes)>)>)

  /** The block the call is pinned to: the option when it is a non-empty string,
      otherwise none, which means the latest block. */
  function PinnedBlock(options: ContractCallOptions): (b: Option<string>)
    ensures b.Some? <==> HasText(options.blockNumber)
    ensures b.Some? ==> b == options.blockNumber
  {
    if HasText(options.blockNumber) then options.blockNumber else None
  }

  /** The reply of the entry point the mode selects, with each slot in the shape
      that mode reads: `Data` for the strict entry point, `Tried` for the tolerant one. */
  function Reply(tryAggregate: bool, chain: Chain, transport: Transport, address: string,
                 payload: seq<AggregatorCall>, block: Option<string>)
    : (r: Result<(nat, seq<RawResult>)>)
    ensures r.Success? ==> forall i :: 0 <= i < |r.value.1| ==> Shaped(tryAggregate, r.value.1[i])
    ensures tryAggregate ==>
              (r.Success? <==> chain.tryBlockAndAggregate(transport, address, payload, block).Success?)
    ensures !tryAggregate ==> (r.Success? <==> chain.aggregate(transport, address, payload, block).Success?)
    ensures r.Success? && tryAggregate ==>
              var reply := chain.tryBlockAndAggregate(transport, address, payload, block).value;
              && r.value.0 == reply.0
              && |r.value.1| == |reply.1|
              && forall i :: 0 <= i < |reply.1| ==> r.value.1[i] == Tried(reply.1[i].0, reply.1[i].1)
    ensures r.Success? && !tryAggregate ==>
              var reply := chain.aggregate(transport, address, payload, block).value;
              && r.value.0 == reply.0
              && |r.value.1| == |reply.1|
              && forall i :: 0 <= i < |reply.1| ==> r.value.1[i] == Data(reply.1[i])
    ensures r.Failure? && tryAggregate ==> r == chain.tryBlockAndAggregate(transport, address, payload, block).PropagateFailure()
    ensures r.Failure? && !tryAggregate ==> r == chain.aggregate(transport, address, payload, block).PropagateFailure()
  {
    if tryAggregate then
      match chain.tryBlockAndAggregate(transport, address, payload, block)
      case Failure(e) => Failure(e)
      case Success(reply) =>
        Success((reply.0, seq(|reply.1|, i requires 0 <= i < |reply.1| => Tried(reply.1[i].0, reply.1[i].1))))
    else
      match chain.aggregate(transport, address, payload, block)
      case Failure(e) => Failure(e)
      case Success(reply) =>
        Success((reply.0, seq(|reply.1|, i requires 0 <= i < |reply.1| => Data(reply.1[i]))))
  }

  /** The transport, its chain id, and the aggregator address for it. */
  function ResolvedAddress(m: MulticallInstance, chain: Chain): (r: Result<string>)
    requires Constructed(m)
    ensures r.Success? ==> chain.chainIdOf(TransportOf(m)).Success?
    ensures chain.chainIdOf(TransportOf(m)).Failure? ==> r == chain.chainIdOf(TransportOf(m)).PropagateFailure()
    ensures chain.chainIdOf(TransportOf(m)).Success? ==>
              r == GetContractBasedOnNetwork(m.options.multicallCustomContractAddress,
                                             chain.chainIdOf(TransportOf(m)).value)
  {
    var chainId :- chain.chainIdOf(TransportOf(m));
    GetContractBasedOnNetwork(m.options.multicallCustomContractAddress, chainId)
  }

  /** Every method result is in the shape the mode reads and stands for a call of
      the batch that carries the bucket's group index. */
  predicate FromBatch(tryAggregate: bool, calls: seq<AggregateCallContext>, buckets: seq<ContractResults>) {
    && (forall j :: 0 <= j < |buckets| ==>
          exists i :: 0 <= i < |calls| && calls[i].contractContextIndex == buckets[j].contractContextIndex)
    && forall j, k :: 0 <= j < |buckets| && 0 <= k < |buckets[j].methodResults| ==>
         && Shaped(tryAggregate, buckets[j].methodResults[k].result)
         && exists i :: && 0 <= i < |calls|
                        && calls[i].contractContextIndex == buckets[j].contractContextIndex
                        && calls[i].contractMethodIndex == buckets[j].methodResults[k].contractMethodIndex
  }

  /** The reply to the batch as `execute` sends it: to the aggregator resolved for
      the transport's chain, the payload in batch order, pinned to the requested
      block if any, through the entry point the mode selects. */
  function SentReply(m: MulticallInstance, calls: seq<AggregateCallContext>, chain: Chain, callOptions: ContractCallOptions)
    : (r: Result<(nat, seq<RawResult>)>)
    requires Constructed(m)
    ensures ResolvedAddress(m, chain).Failure? ==> r == ResolvedAddress(m, chain).PropagateFailure()
    ensures ResolvedAddress(m, chain).Success? && m.options.tryAggregate ==>
              var sent := chain.tryBlockAndAggregate(TransportOf(m), ResolvedAddress(m, chain).value,
                                                     MapCallContextToMatchContractFormat(calls), PinnedBlock(callOptions));
              && (r.Success? <==> sent.Success?)
              && (r.Success? ==> && r.value.0 == sent.value.0
                                 && |r.value.1| == |sent.value.1|
                                 && forall i :: 0 <= i < |r.value.1| ==>
                                      r.value.1[i] == Tried(sent.value.1[i].0, sent.value.1[i].1))
    ensures ResolvedAddress(m, chain).Success? && !m.options.tryAggregate ==>
              var sent := chain.aggregate(TransportOf(m), ResolvedAddress(m, chain).value,
                                          MapCallContextToMatchContractFormat(calls), PinnedBlock(callOptions));
              && (r.Success? <==> sent.Success?)
              && (r.Success? ==> && r.value.0 == sent.value.0
                                 && |r.value.1| == |sent.value.1|
                                 && forall i :: 0 <= i < |r.value.1| ==> r.value.1[i] == Data(sent.value.1[i]))
  {
    var address :- ResolvedAddress(m, chain);
    Reply(m.options.tryAggregate, chain, TransportOf(m), address,
          MapCallContextToMatchContractFormat(calls), PinnedBlock(callOptions))
  }

  /** `execute`, both client paths: the reply to the batch sent is regrouped. An
      unknown chain without an override fails before anything is sent; a failure of
      the node or the aggregator is passed on; a reply with more slots than calls is
      malformed. Otherwise the block number is the reply's, and the buckets are the
      groups of the replied calls in first-appearance order, each holding exactly the
      slots whose call carries its group index. */
  function Execute(m: MulticallInstance, calls: seq<AggregateCallContext>, chain: Chain, callOptions: ContractCallOptions)
    : (r: Result<AggregateResponse>)
    requires Constructed(m)
    ensures r.Success? ==> ResolvedAddress(m, chain).Success?
    ensures var id := chain.chainIdOf(TransportOf(m));
            id.Success? && !HasText(m.options.multicallCustomContractAddress) && NetworkOfChainId(id.value).Other? ==>
              r == Failure(UnsupportedNetwork(id.value))
    ensures SentReply(m, calls, chain, callOptions).Failure? ==>
              r == SentReply(m, calls, chain, callOptions).PropagateFailure()
    ensures SentReply(m, calls, chain, callOptions).Success? ==>
              var slots := SentReply(m, calls, chain, callOptions).value.1;
              && (r.Success? <==> |slots| <= |calls|)
              && (r.Failure? ==> r.error == MalformedReply)
              && (r.Success? ==>
                    && r.value.blockNumber == SentReply(m, calls, chain, callOptions).value.0
                    && Keys(r.value.results) == GroupOrder(calls, |slots|)
                    && forall j :: 0 <= j < |r.value.results| ==>
                         r.value.results[j].methodResults ==
                           Routed(r.value.results[j].contractContextIndex, slots, calls, |slots|))
    ensures r.Success? ==> FromBatch(m.options.tryAggregate, calls, r.value.results)
  {
    var reply :- SentReply(m, calls, chain, callOptions);
    var response :- BuildUpAggregateResponse(reply.0, reply.1, calls);
    ReplyFromBatch(m.options.tryAggregate, calls, reply.0, reply.1);
    Success(response)
  }

  /** Regrouping a reply whose slots have the mode's shape yields buckets drawn from the batch. */
  lemma ReplyFromBatch(tryAggregate: bool, calls: seq<AggregateCallContext>, blockNumber: nat, slots: seq<RawResult>)
    requires |slots| <= |calls|
    requires forall i :: 0 <= i < |slots| ==> Shaped(tryAggregate, slots[i])
    ensures BuildUpAggregateResponse(blockNumber, slots, calls).Success?
    ensures FromBatch(tryAggregate, calls, BuildUpAggregateResponse(blockNumber, slots, calls).value.results)
  {
    var buckets := BuildUpAggregateResponse(blockNumber, slots, calls).value.results;
    forall j | 0 <= j < |buckets|
      ensures exists i :: 0 <= i < |calls| && calls[i].contractContextIndex == buckets[j].contractContextIndex
    {
      assert buckets[j].contractContextIndex in GroupOrder(calls, |slots|) by {
        assert Keys(buckets)[j] == buckets[j].contractContextIndex;
      }
    }
    forall j, k | 0 <= j < |buckets| && 0 <= k < |buckets[j].methodResults|
      ensures Shaped(tryAggregate, buckets[j].methodResults[k].result)
      ensures exists i :: && 0 <= i < |calls|
                          && calls[i].contractContextIndex == buckets[j].contractContextIndex
                          && calls[i].contractMethodIndex == buckets[j].methodResults[k].contractMethodIndex
    {
      var i := RoutedSource(buckets[j].contractContextIndex, slots, calls, |slots|, k);
      assert buckets[j].methodResults[k] == MethodResult(calls[i].contractMethodIndex, slots[i]);
    }
  }

  /** For a flattened batch, buckets drawn from it name groups that have calls and
      method results that name calls of those groups: unpacking can read them. */
  lemma BatchRoutable(tryAggregate: bool, groups: seq<ContractCallContext>, calls: seq<AggregateCallContext>,
                      buckets: seq<ContractResults>)
    requires Tagged(groups, calls)
    requires FromBatch(tryAggregate, calls, buckets)
    ensures Routable(tryAggregate, groups, buckets)
    ensures forall j :: 0 <= j < |buckets| ==> |groups[buckets[j].contractContextIndex].calls| > 0
  {
    forall j | 0 <= j < |buckets|
      ensures BucketRoutable(tryAggregate, groups, buckets[j])
      ensures |groups[buckets[j].contractContextIndex].calls| > 0
    {
      var i :| 0 <= i < |calls| && calls[i].contractContextIndex == buckets[j].contractContextIndex;
      assert Placed(groups, calls[i], i);
      forall k | 0 <= k < |buckets[j].methodResults|
        ensures buckets[j].methodResults[k].contractMethodIndex < |groups[buckets[j].contractContextIndex].calls|
      {
        var i' :| && 0 <= i' < |calls|
                  && calls[i'].contractContextIndex == buckets[j].contractContextIndex
                  && calls[i'].contractMethodIndex == buckets[j].methodResults[k].contractMethodIndex;
        assert Placed(groups, calls[i'], i');
      }
    }
  }

  /** `call`: the request is flattened (an ABI or encoding error stops it before any
      I/O), executed, and unpacked. Every key of the result is the reference of a
      group of the request that has calls, and in tolerant mode nothing fails after
      the aggregator has answered. */
  function Call(m: MulticallInstance, request: Request, codec: Codec, chain: Chain, callOptions: ContractCallOptions)
    : (r: Result<ContractCallResults>)
    requires Constructed(m)
    ensures BuildAggregateCallContext(codec, Groups(request)).Failure? ==>
              r == BuildAggregateCallContext(codec, Groups(request)).PropagateFailure()
    ensures r.Success? ==> forall key :: key in r.value.results ==>
              exists g :: 0 <= g < |Groups(request)| && |Groups(request)[g].calls| > 0 && Groups(request)[g].reference == key
    ensures m.options.tryAggregate && BuildAggregateCallContext(codec, Groups(request)).Success? ==>
              (r.Success? <==> Execute(m, BuildAggregateCallContext(codec, Groups(request)).value, chain, callOptions).Success?)
    ensures r.Success? ==>
              && BuildAggregateCallContext(codec, Groups(request)).Success?
              && Execute(m, BuildAggregateCallContext(codec, Groups(request)).value, chain, callOptions).Success?
              && r.value.blockNumber ==
                   Execute(m, BuildAggregateCallContext(codec, Groups(request)).value, chain, callOptions).value.blockNumber
  {
    var groups := Groups(request);
    var calls :- BuildAggregateCallContext(codec, groups);
    var response :- Execute(m, calls, chain, callOptions);
    BatchRoutable(m.options.tryAggregate, groups, calls, response.results);
    var results :- UnpackResults(codec, m.options.tryAggregate, groups, response.results);
    UnpackResultsKeys(codec, m.options.tryAggregate, groups, response.results);
    if m.options.tryAggregate then
      TolerantNeverFails(codec, groups, response.results);
      Success(ContractCallResults(results, response.blockNumber))
    else
      Success(ContractCallResults(results, response.blockNumber))
  }

  /** What `call` returns once the request has flattened: a failure of `execute`
      reaches the caller unchanged; otherwise the buckets can be unpacked, and the
      call succeeds exactly when unpacking does, with unpacking's results or with
      its error. In strict mode, then, `call` succeeds exactly when every slot decodes. */
  lemma CallOutcome(m: MulticallInstance, request: Request, codec: Codec, chain: Chain, callOptions: ContractCallOptions)
    requires Constructed(m)
    ensures var groups := Groups(request);
            var flat := BuildAggregateCallContext(codec, groups);
            flat.Success? ==>
              var executed := Execute(m, flat.value, chain, callOptions);
              var r := Call(m, request, codec, chain, callOptions);
              && (executed.Failure? ==> r == executed.PropagateFailure())
              && (executed.Success? ==>
                    && Routable(m.options.tryAggregate, groups, executed.value.results)
                    && var unpacked := UnpackResults(codec, m.options.tryAggregate, groups, executed.value.results);
                       && (r.Success? <==> unpacked.Success?)
                       && (r.Failure? ==> r.error == unpacked.error)
                       && (r.Success? ==> r.value.results == unpacked.value
                                          && r.value.blockNumber == executed.value.blockNumber))
  {
    var groups := Groups(request);
    var flat := BuildAggregateCallContext(codec, groups);
    if flat.Success? {
      var executed := Execute(m, flat.value, chain, callOptions);
      if executed.Success? {
        BatchRoutable(m.options.tryAggregate, groups, flat.value, executed.value.results);
      }
    }
  }

  /** No other group with calls shares group g's reference. */
  predicate UniqueReference(groups: seq<ContractCallContext>, g: nat)
    requires g < |groups|
  {
    forall h :: 0 <= h < |groups| && h != g && |groups[h].calls| > 0 ==> groups[h].reference != groups[g].reference
  }

  /** A reply with one slot per call, in the shape the mode reads, can be unpacked. */
  lemma FullReplyRoutable(tryAggregate: bool, groups: seq<ContractCallContext>, calls: seq<AggregateCallContext>,
                          blockNumber: nat, slots: seq<RawResult>)
    requires Tagged(groups, calls) && |slots| == |calls|
    requires forall i :: 0 <= i < |slots| ==> Shaped(tryAggregate, slots[i])
    ensures BuildUpAggregateResponse(blockNumber, slots, calls).Success?
    ensures Routable(tryAggregate, groups, BuildUpAggregateResponse(blockNumber, slots, calls).value.results)
  {
    SlotRoutesToItsCall(groups, calls, blockNumber, slots);
    var buckets := BuildUpAggregateResponse(blockNumber, slots, calls).value.results;
    forall j | 0 <= j < |buckets|
      ensures BucketRoutable(tryAggregate, groups, buckets[j])
    {
      assert HoldsGroupSlots(groups, slots, buckets[j]);
    }
  }

  /** `entry` is group g's entry unpacked from the slots at g's batch positions: it
      carries g, has one return entry per call of g, and entry k is the slot at
      position CallsBefore(g) + k unpacked against call k. */
  predicate EntryOfGroup(codec: Codec, tryAggregate: bool, groups: seq<ContractCallContext>,
                         slots: seq<RawResult>, g: nat, entry: ContractCallReturnContext) {
    && g < |groups|
    && entry.originalContractCallContext == groups[g]
    && |entry.callsReturnContext| == |groups[g].calls|
    && CallsBefore(groups, g) + |groups[g].calls| <= |slots|
    && forall k :: 0 <= k < |groups[g].calls| ==> SlotUnpacksTo(codec, tryAggregate, groups, slots, g, k, entry)
  }

  /** Return entry k of `entry` is the slot at call k's batch position unpacked against call k. */
  predicate SlotUnpacksTo(codec: Codec, tryAggregate: bool, groups: seq<ContractCallContext>,
                          slots: seq<RawResult>, g: nat, k: nat, entry: ContractCallReturnContext) {
    && g < |groups|
    && k < |groups[g].calls|
    && k < |entry.callsReturnContext|
    && CallsBefore(groups, g) + k < |slots|
    && Shaped(tryAggregate, slots[CallsBefore(groups, g) + k])
    && UnpackSlot(codec, tryAggregate, g, k, groups[g], groups[g].calls[k], slots[CallsBefore(groups, g) + k])
         == Success(entry.callsReturnContext[k])
  }

  /** The round trip through the aggregator. For a flattened batch and a reply with
      one slot per call, the entry stored under the reference of a group g with
      calls (and no other group with calls under that reference) is g's own entry,
      unpacked from the slots at g's batch positions. */
  lemma FullReplyEntries(codec: Codec, tryAggregate: bool, groups: seq<ContractCallContext>,
                         calls: seq<AggregateCallContext>, blockNumber: nat, slots: seq<RawResult>, g: nat)
    requires Tagged(groups, calls) && |slots| == |calls|
    requires forall i :: 0 <= i < |slots| ==> Shaped(tryAggregate, slots[i])
    requires g < |groups| && |groups[g].calls| > 0 && UniqueReference(groups, g)
    ensures BuildUpAggregateResponse(blockNumber, slots, calls).Success?
    ensures var buckets := BuildUpAggregateResponse(blockNumber, slots, calls).value.results;
            && Routable(tryAggregate, groups, buckets)
            && (UnpackResults(codec, tryAggregate, groups, buckets).Success? ==>
                  var results := UnpackResults(codec, tryAggregate, groups, buckets).value;
                  && groups[g].reference in results
                  && EntryOfGroup(codec, tryAggregate, groups, slots, g, results[groups[g].reference]))
  {
    FullReplyRoutable(tryAggregate, groups, calls, blockNumber, slots);
    var buckets := BuildUpAggregateResponse(blockNumber, slots, calls).value.results;
    if UnpackResults(codec, tryAggregate, groups, buckets).Success? {
      var j := BucketOfGroup(groups, calls, blockNumber, slots, g);
      EntryUnderReference(codec, tryAggregate, groups, slots, buckets, j);
    }
  }

  /** The entry stored under the reference of a bucket that holds its group's slots,
      with no later bucket under the same reference, is that group's entry. */
  lemma EntryUnderReference(codec: Codec, tryAggregate: bool, groups: seq<ContractCallContext>,
                            slots: seq<RawResult>, buckets: seq<ContractResults>, j: nat)
    requires Routable(tryAggregate, groups, buckets)
    requires forall i :: 0 <= i < |slots| ==> Shaped(tryAggregate, slots[i])
    requires j < |buckets| && HoldsGroupSlots(groups, slots, buckets[j])
    requires forall i :: j < i < |buckets| ==>
               groups[buckets[i].contractContextIndex].reference != groups[buckets[j].contractContextIndex].reference
    ensures UnpackResults(codec, tryAggregate, groups, buckets).Success? ==>
              var g := buckets[j].contractContextIndex;
              var results := UnpackResults(codec, tryAggregate, groups, buckets).value;
              && groups[g].reference in results
              && EntryOfGroup(codec, tryAggregate, groups, slots, g, results[groups[g].reference])
  {
    if UnpackResults(codec, tryAggregate, groups, buckets).Success? {
      StoredEntry(codec, tryAggregate, groups, buckets, j);
      GroupEntryHoldsSlots(codec, tryAggregate, groups, slots, buckets[j]);
    }
  }

  /** A bucket holding its group's slots unpacks, call by call, into those slots'
      entries. */
  lemma GroupEntryHoldsSlots(codec: Codec, tryAggregate: bool, groups: seq<ContractCallContext>,
                             slots: seq<RawResult>, b: ContractResults)
    requires BucketRoutable(tryAggregate, groups, b) && HoldsGroupSlots(groups, slots, b)
    requires UnpackGroup(codec, tryAggregate, groups, b).Success?
    ensures EntryOfGroup(codec, tryAggregate, groups, slots, b.contractContextIndex,
                         UnpackGroup(codec, tryAggregate, groups, b).value)
  {
    var g := b.contractContextIndex;
    var entry := UnpackGroup(codec, tryAggregate, groups, b).value;
    forall k | 0 <= k < |groups[g].calls|
      ensures SlotUnpacksTo(codec, tryAggregate, groups, slots, g, k, entry)
    {
      SlotOfGroupEntry(codec, tryAggregate, groups, slots, b, k);
    }
    assert entry.originalContractCallContext == groups[g];
    assert |entry.callsReturnContext| == |b.methodResults| == |groups[g].calls|;
  }

  /** Call k of a bucket that holds its group's slots unpacks into entry k. */
  lemma SlotOfGroupEntry(codec: Codec, tryAggregate: bool, groups: seq<ContractCallContext>,
                         slots: seq<RawResult>, b: ContractResults, k: nat)
    requires BucketRoutable(tryAggregate, groups, b) && HoldsGroupSlots(groups, slots, b)
    requires UnpackGroup(codec, tryAggregate, groups, b).Success?
    requires k < |groups[b.contractContextIndex].calls|
    ensures var g := b.contractContextIndex;
            var slot := slots[CallsBefore(groups, g) + k];
            && Shaped(tryAggregate, slot)
            && UnpackSlot(codec, tryAggregate, g, k, groups[g], groups[g].calls[k], slot)
                 == Success(UnpackGroup(codec, tryAggregate, groups, b).value.callsReturnContext[k])
  {
    var g := b.contractContextIndex;
    var slot := slots[CallsBefore(groups, g) + k];
    assert b.methodResults[k] == MethodResult(k, slot);
    assert Shaped(tryAggregate, b.methodResults[k].result);
    assert SlotEntry(codec, tryAggregate, groups, b, k)
             == UnpackSlot(codec, tryAggregate, g, k, groups[g], groups[g].calls[k], slot);
  }

  /** For a full reply, group g with calls owns exactly one bucket, holding its slots;
      every later bucket belongs to a later group that also has calls, so when g's
      reference is its own, to a group with another reference. */
  lemma BucketOfGroup(groups: seq<ContractCallContext>, calls: seq<AggregateCallContext>,
                      blockNumber: nat, slots: seq<RawResult>, g: nat)
    returns (j: nat)
    requires Tagged(groups, calls) && |slots| == |calls|
    requires g < |groups| && |groups[g].calls| > 0 && UniqueReference(groups, g)
    ensures BuildUpAggregateResponse(blockNumber, slots, calls).Success?
    ensures var buckets := BuildUpAggregateResponse(blockNumber, slots, calls).value.results;
            && j < |buckets|
            && buckets[j].contractContextIndex == g
            && HoldsGroupSlots(groups, slots, buckets[j])
            && forall i :: j < i < |buckets| ==>
                 && buckets[i].contractContextIndex < |groups|
                 && groups[buckets[i].contractContextIndex].reference != groups[g].reference
  {
    SlotRoutesToItsCall(groups, calls, blockNumber, slots);
    var buckets := BuildUpAggregateResponse(blockNumber, slots, calls).value.results;
    assert g in Keys(buckets);
    j :| 0 <= j < |buckets| && Keys(buckets)[j] == g;
    forall i | j < i < |buckets|
      ensures buckets[i].contractContextIndex < |groups|
      ensures groups[buckets[i].contractContextIndex].reference != groups[g].reference
    {
      assert HoldsGroupSlots(groups, slots, buckets[i]);
      assert g < buckets[i].contractContextIndex;
    }
  }

  /** The entry stored under bucket j's reference is bucket j's, when no later bucket
      belongs to a group with the same reference. */
  lemma StoredEntry(codec: Codec, tryAggregate: bool, groups: seq<ContractCallContext>,
                    buckets: seq<ContractResults>, j: nat)
    requires Routable(tryAggregate, groups, buckets)
    requires j < |buckets|
    requires forall i :: j < i < |buckets| ==>
               groups[buckets[i].contractContextIndex].reference != groups[buckets[j].contractContextIndex].reference
    ensures UnpackResults(codec, tryAggregate, groups, buckets).Success? ==>
              var results := UnpackResults(codec, tryAggregate, groups, buckets).value;
              && UnpackGroup(codec, tryAggregate, groups, buckets[j]).Success?
              && groups[buckets[j].contractContextIndex].reference in results
              && results[groups[buckets[j].contractContextIndex].reference]
                   == UnpackGroup(codec, tryAggregate, groups, buckets[j]).value
  {
    var steps := GroupEntries(codec, tryAggregate, groups, buckets);
    if CollectAll(steps).Success? {
      var entries := CollectAll(steps).value;
      assert steps[j] == Success(entries[j]);
      forall i | j < i < |entries|
        ensures ReferenceOf(entries[i]) != ReferenceOf(entries[j])
      {
        assert steps[i] == Success(entries[i]);
      }
      assert LastWithReference(entries, j, |entries|);
    }
  }

  /** The aggregator answers every sub-call: each entry point, when it returns,
      returns one slot per call of the batch it was given. */
  ghost predicate AnswersInFull(chain: Chain) {
    && (forall t, a, p, b :: chain.aggregate(t, a, p, b).Success? ==> |chain.aggregate(t, a, p, b).value.1| == |p|)
    && (forall t, a, p, b :: chain.tryBlockAndAggregate(t, a, p, b).Success? ==>
          |chain.tryBlockAndAggregate(t, a, p, b).value.1| == |p|)
  }

  /** End to end: when the aggregator answers every sub-call and `call` succeeds,
      each group with calls and a reference of its own finds its entry under that
      reference, carrying the group and one return entry per call in call order,
      each echoing its call; in strict mode every one of them is a success. */
  lemma CallAnswersEveryCall(m: MulticallInstance, request: Request, codec: Codec, chain: Chain,
                             callOptions: ContractCallOptions, g: nat)
    requires Constructed(m) && AnswersInFull(chain)
    requires g < |Groups(request)| && |Groups(request)[g].calls| > 0 && UniqueReference(Groups(request), g)
    ensures Call(m, request, codec, chain, callOptions).Success? ==>
              var groups := Groups(request);
              var calls := BuildAggregateCallContext(codec, groups).value;
              var results := Call(m, request, codec, chain, callOptions).value.results;
              && SentReply(m, calls, chain, callOptions).Success?
              && |SentReply(m, calls, chain, callOptions).value.1| == |calls|
              && groups[g].reference in results
              && EntryOfGroup(codec, m.options.tryAggregate, groups, SentReply(m, calls, chain, callOptions).value.1,
                              g, results[groups[g].reference])
              && forall k :: 0 <= k < |groups[g].calls| ==>
                   && Echoes(results[groups[g].reference].callsReturnContext[k], groups[g].calls[k])
                   && (!m.options.tryAggregate ==> results[groups[g].reference].callsReturnContext[k].success)
  {
    if Call(m, request, codec, chain, callOptions).Success? {
      var groups := Groups(request);
      var tryAggregate := m.options.tryAggregate;
      var calls := BuildAggregateCallContext(codec, groups).value;
      var address := ResolvedAddress(m, chain).value;
      var payload := MapCallContextToMatchContractFormat(calls);
      var reply := SentReply(m, calls, chain, callOptions).value;
      assert |reply.1| == |calls| by {
        if tryAggregate {
          assert |chain.tryBlockAndAggregate(TransportOf(m), address, payload, PinnedBlock(callOptions)).value.1| == |payload|;
        } else {
          assert |chain.aggregate(TransportOf(m), address, payload, PinnedBlock(callOptions)).value.1| == |payload|;
        }
      }
      var buckets := BuildUpAggregateResponse(reply.0, reply.1, calls).value.results;
      assert Execute(m, calls, chain, callOptions).value.results == buckets;
      FullReplyEntries(codec, tryAggregate, groups, calls, reply.0, reply.1, g);
      var results := UnpackResults(codec, tryAggregate, groups, buckets).value;
      assert Call(m, request, codec, chain, callOptions).value.results == results;
      var entry := results[groups[g].reference];
      forall k | 0 <= k < |groups[g].calls|
        ensures Echoes(entry.callsReturnContext[k], groups[g].calls[k])
        ensures !tryAggregate ==> entry.callsReturnContext[k].success
      {
        assert SlotUnpacksTo(codec, tryAggregate, groups, reply.1, g, k, entry);
      }
    }
  }
}

=== FILE: networks.dfy ===
/** The networks the aggregator-address table names, and the numeric chain ids
    the `Networks` enumeration assigns to some of them. */
module Networks {
  import opened Values

  /** Every network the address table has a case for, plus any other chain by its id.
      The enumeration's lower-case member names are written here in upper camel case
      (`bsc_testnet` is `BscTestnet`). */
  datatype Network =
    | Mainnet
    | Ropsten
    | Rinkeby
    | Goerli
    | Optimism
    | Kovan
    | Matic
    | KovanOptimism
    | Xdai
    | XDaiTestnet
    | GoerliOptimism
    | SepoliaOptimism
    | Arbitrum
    | RinkebyArbitrum
    | GoerliArbitrum
    | SepoliaArbitrum
    | Mumbai
    | Sei
    | Sepolia
    | AvalancheMainnet
    | AvalancheFuji
    | FantomTestnet
    | Fantom
    | Bsc
    | BscTestnet
    | Moonbeam
    | Moonriver
    | MoonbaseAlphaTestnet
    | Harmony
    | Cronos
    | Fuse
    | SongbirdCanaryNetwork
    | CostonTestnet
    | Boba
    | Aurora
    | Astar
    | Okc
    | Heco
    | Metis
    | Rsk
    | RskTestnet
    | Evmos
    | EvmosTestnet
    | Thundercore
    | ThundercoreTestnet
    | Oasis
    | Celo
    | Godwoken
    | GodwokenTestnet
    | Klatyn
    | Milkomeda
    | Kcc
    | LineaTestnet
    | Linea
    | Mantle
    | MantleTestnet
    | Base
    | BaseTestnet
    | BlastSepolia
    | PolygonZkEvm
    | PolygonZkEvmTestnet
    | Zora
    | ZoraTestnet
    | Flare
    | Pulsechain
    | Scroll
    | ScrollSepolia
    | Sapphire
    | Blast
    | Amoy
    | MantaPacific
    | Mode
    | Bob
    | ModeTestnet
    | Etherlite
    | ZkSyncEra
    | ZkSyncEraTestnet
    | ZkSyncEraSepoliaTestnet
    | Shibarium
    | Starknet
    | StarknetTestnet
    | Other(chainId: nat)

  /** The chain id the enumeration declares for a network; the other named
      networks have no id in the enumeration. */
  function DeclaredChainId(n: Network): Option<nat> {
    if n.Mainnet? then Some(1)
    else if n.Ropsten? then Some(3)
    else if n.Rinkeby? then Some(4)
    else if n.Goerli? then Some(5)
    else if n.Kovan? then Some(42)
    else if n.Bsc? then Some(56)
    else if n.BscTestnet? then Some(97)
    else if n.Xdai? then Some(100)
    else if n.Matic? then Some(137)
    else if n.Mumbai? then Some(80001)
    else if n.AvalancheFuji? then Some(43113)
    else if n.AvalancheMainnet? then Some(43114)
    else if n.Etherlite? then Some(111)
    else if n.Arbitrum? then Some(42161)
    else if n.Fantom? then Some(250)
    else if n.Cronos? then Some(25)
    else if n.Harmony? then Some(1666600000)
    else None
  }

  /** The network a chain id denotes: one of the enumeration's members, or
      `Other(id)` for an id the enumeration does not declare. */
  function NetworkOfChainId(id: nat): (n: Network)
    ensures n.Other? ==> n.chainId == id
    ensures !n.Other? ==> DeclaredChainId(n) == Some(id)
  {
    if id == 1 then Mainnet
    else if id == 3 then Ropsten
    else if id == 4 then Rinkeby
    else if id == 5 then Goerli
    else if id == 42 then Kovan
    else if id == 56 then Bsc
    else if id == 97 then BscTestnet
    else if id == 100 then Xdai
    else if id == 137 then Matic
    else if id == 80001 then Mumbai
    else if id == 43113 then AvalancheFuji
    else if id == 43114 then AvalancheMainnet
    else if id == 111 then Etherlite
    else if id == 42161 then Arbitrum
    else if id == 250 then Fantom
    else if id == 25 then Cronos
    else if id == 1666600000 then Harmony
    else Other(id)
  }

  /** Reading an enumeration member's id back gives the member: no two members share an id. */
  lemma ChainIdRoundTrip(n: Network)
    requires DeclaredChainId(n).Some?
    ensures NetworkOfChainId(DeclaredChainId(n).value) == n
  {
    if n.Mainnet? {
    } else if n.Ropsten? {
    } else if n.Rinkeby? {
    } else if n.Goerli? {
    } else if n.Kovan? {
    } else if n.Bsc? {
    } else if n.BscTestnet? {
    } else if n.Xdai? {
    } else if n.Matic? {
    } else if n.Mumbai? {
    } else if n.AvalancheFuji? {
    } else if n.AvalancheMainnet? {
    } else if n.Etherlite? {
    } else if n.Arbitrum? {
    } else if n.Fantom? {
    } else if n.Cronos? {
    } else if n.Harmony? {
    } else {
      assert false;
    }
  }

  /** A chain id reads as `Other` exactly when no member of the enumeration declares it. */
  lemma OtherExactlyWhenUndeclared(id: nat)
    ensures NetworkOfChainId(id).Other? <==> forall m :: DeclaredChainId(m) != Some(id)
  {
    if NetworkOfChainId(id).Other? {
      forall m | DeclaredChainId(m).Some?
        ensures DeclaredChainId(m) != Some(id)
      {
        ChainIdRoundTrip(m);
      }
    } else {
      assert DeclaredChainId(NetworkOfChainId(id)) == Some(id);
    }
  }

  lemma DeclaredChainIdsDistinct(a: Network, b: Network)
    requires DeclaredChainId(a).Some? && DeclaredChainId(a) == DeclaredChainId(b)
    ensures a == b
  {
    ChainIdRoundTrip(a);
    ChainIdRoundTrip(b);
  }
}

=== FILE: registry.dfy ===
/** The table of deployed aggregator contracts, keyed by network, and the
    override that replaces it. */
module Registry {
  import opened Values
  import opened Networks

  /** The address most networks share (the Multicall3 deployment). */
  const Multicall3Address := "0xcA11bde05977b3631167028862bE2a173976CA11"
  const ModeTestnetAddress := "0xBAba8373113Fb7a68f195deF18732e01aF8eDfCF"
  const EtherliteAddress := "0x21681750D7ddCB8d1240eD47338dC984f94AF2aC"
  const ZkSyncAddress := "0xF9cda624FBC7e059355ce98a31693d299FACd963"
  const ShibariumAddress := "0xd1727fC8F78aBA7DD6294f6033D74c72Ccd3D3B0"
  const StarknetAddress := "0xc662c410C0ECf747543f5bA90660f6ABeBD9C8c4"
  const StarknetTestnetAddress := "0xde29d060D45901Fb19ED6C6e959EB22d8626708e"

  /** The address table; `None` for a network it has no entry for. */
  function AggregatorAddress(n: Network): Option<string> {
    match n
    case
      Mainnet | Ropsten | Rinkeby | Goerli | Optimism | Kovan | Matic | KovanOptimism | Xdai
      | XDaiTestnet | GoerliOptimism | SepoliaOptimism | Arbitrum | RinkebyArbitrum
      | GoerliArbitrum | SepoliaArbitrum | Mumbai | Sei | Sepolia | AvalancheMainnet
      | AvalancheFuji | FantomTestnet | Fantom | Bsc | BscTestnet | Moonbeam | Moonriver
      | MoonbaseAlphaTestnet | Harmony | Cronos | Fuse | SongbirdCanaryNetwork | CostonTestnet
      | Boba | Aurora | Astar | Okc | Heco | Metis | Rsk | RskTestnet | Evmos | EvmosTestnet
      | Thundercore | ThundercoreTestnet | Oasis | Celo | Godwoken | GodwokenTestnet | Klatyn
      | Milkomeda | Kcc | LineaTestnet | Linea | Mantle | MantleTestnet | Base | BaseTestnet
      | BlastSepolia | PolygonZkEvm | PolygonZkEvmTestnet | Zora | ZoraTestnet | Flare
      | Pulsechain | Scroll | ScrollSepolia | Sapphire | Blast | Amoy | MantaPacific | Mode
      | Bob
      => Some(Multicall3Address)
    case ModeTestnet => Some(ModeTestnetAddress)
    case Etherlite => Some(EtherliteAddress)
    case ZkSyncEra | ZkSyncEraTestnet | ZkSyncEraSepoliaTestnet => Some(ZkSyncAddress)
    case Shibarium => Some(ShibariumAddress)
    case Starknet => Some(StarknetAddress)
    case StarknetTestnet => Some(StarknetTestnetAddress)
    case Other(_) => None
  }

  /** The aggregator to call on `network`: a non-empty override wins on every
      network; otherwise the table decides, and a network without an entry fails. */
  function ResolveAggregator(customAddress: Option<string>, network: Network): (r: Result<string>)
    ensures HasText(customAddress) ==> r == Success(customAddress.value)
    ensures !HasText(customAddress) ==> (r.Success? <==> !network.Other?)
    ensures r.Failure? ==> network.Other? && r.error == UnsupportedNetwork(network.chainId)
    ensures !HasText(customAddress) && network in {ZkSyncEra, ZkSyncEraTestnet, ZkSyncEraSepoliaTestnet} ==>
              r == Success(ZkSyncAddress)
  {
    if HasText(customAddress) then Success(customAddress.value)
    else match AggregatorAddress(network)
      case Some(address) => Success(address)
      case None => Failure(UnsupportedNetwork(network.chainId))
  }

  /** The aggregator for a numeric chain id. Every id the enumeration declares
      resolves, to the shared deployment except for etherlite (111); any other id
      fails unless an override is given. */
  function GetContractBasedOnNetwork(customAddress: Option<string>, chainId: nat): (r: Result<string>)
    ensures HasText(customAddress) ==> r == Success(customAddress.value)
    ensures !HasText(customAddress) && NetworkOfChainId(chainId).Other? ==> r == Failure(UnsupportedNetwork(chainId))
    ensures !HasText(customAddress) && !NetworkOfChainId(chainId).Other? ==>
              r == Success(if chainId == 111 then EtherliteAddress else Multicall3Address)
  {
    ResolveAggregator(customAddress, NetworkOfChainId(chainId))
  }

  /** Every member of the enumeration has an aggregator address. */
  lemma DeclaredNetworksResolve(n: Network)
    requires DeclaredChainId(n).Some?
    ensures AggregatorAddress(n).Some?
  {
  }
}

=== FILE: regroup.dfy ===
/** Regrouping: `buildUpAggregateResponse` walks the reply slots in order and
    appends slot i, with its call index, to the bucket of its group index, opening
    a new bucket the first time a group index is seen. */
module Regroup {
  import opened Values
  import opened Models

  /** The group indices of the buckets, in bucket order. */
  function Keys(buckets: seq<ContractResults>): (r: seq<nat>)
    ensures |r| == |buckets|
    ensures forall j :: 0 <= j < |r| ==> r[j] == buckets[j].contractContextIndex
  {
    seq(|buckets|, j requires 0 <= j < |buckets| => buckets[j].contractContextIndex)
  }

  predicate Distinct(xs: seq<nat>) {
    forall i, j :: 0 <= i < j < |xs| ==> xs[i] != xs[j]
  }

  function TotalMethodResults(buckets: seq<ContractResults>): nat {
    if |buckets| == 0 then 0 else |buckets[0].methodResults| + TotalMethodResults(buckets[1..])
  }

  /** The group indices of calls `0..n`, each once, in order of first appearance. */
  function GroupOrder(calls: seq<AggregateCallContext>, n: nat): (r: seq<nat>)
    requires n <= |calls|
    ensures Distinct(r)
    ensures forall x :: x in r <==> exists i :: 0 <= i < n && calls[i].contractContextIndex == x
  {
    if n == 0 then []
    else
      var earlier := GroupOrder(calls, n - 1);
      var key := calls[n - 1].contractContextIndex;
      if key in earlier then earlier else earlier + [key]
  }

  /** The reference routing: the slots among `0..n` whose call carries group index
      `key`, in slot order, each with its call's method index. */
  function Routed(key: nat, slots: seq<RawResult>, calls: seq<AggregateCallContext>, n: nat): seq<MethodResult>
    requires n <= |slots| <= |calls|
  {
    if n == 0 then []
    else
      Routed(key, slots, calls, n - 1)
      + (if calls[n - 1].contractContextIndex == key
         then [MethodResult(calls[n - 1].contractMethodIndex, slots[n - 1])]
         else [])
  }

  /** A group index no call among `0..n` carries has nothing routed to it. */
  lemma {:induction false} RoutedAbsent(key: nat, slots: seq<RawResult>, calls: seq<AggregateCallContext>, n: nat)
    requires n <= |slots| <= |calls|
    ensures (forall i :: 0 <= i < n ==> calls[i].contractContextIndex != key) ==> Routed(key, slots, calls, n) == []
  {
    if n > 0 {
      RoutedAbsent(key, slots, calls, n - 1);
    }
  }

  /** The k-th slot routed to `key` among the first n comes from a position i below
      n whose call carries `key`, paired with that call's method index. */
  lemma {:induction false} RoutedSource(key: nat, slots: seq<RawResult>, calls: seq<AggregateCallContext>, n: nat, k: nat)
    returns (i: nat)
    requires n <= |slots| <= |calls|
    requires k < |Routed(key, slots, calls, n)|
    ensures i < n && calls[i].contractContextIndex == key
    ensures Routed(key, slots, calls, n)[k] == MethodResult(calls[i].contractMethodIndex, slots[i])
  {
    var earlier := Routed(key, slots, calls, n - 1);
    if k < |earlier| {
      i := RoutedSource(key, slots, calls, n - 1, k);
    } else {
      i := n - 1;
    }
  }

  /** `find`: the first bucket whose group index is `key`. */
  function BucketOf(buckets: seq<ContractResults>, key: nat): (j: nat)
    requires key in Keys(buckets)
    ensures j < |buckets| && buckets[j].contractContextIndex == key
    ensures forall i :: 0 <= i < j ==> buckets[i].contractContextIndex != key
  {
    if buckets[0].contractContextIndex == key then 0
    else
      assert Keys(buckets[1..]) == Keys(buckets)[1..];
      1 + BucketOf(buckets[1..], key)
  }

  /** The `find`-then-push step: `mr` is appended to the bucket of `key`, or to a
      new bucket at the end when there is none; no other bucket changes. */
  function AddSlot(buckets: seq<ContractResults>, key: nat, mr: MethodResult): (r: seq<ContractResults>)
    requires Distinct(Keys(buckets))
    ensures Keys(r) == if key in Keys(buckets) then Keys(buckets) else Keys(buckets) + [key]
    ensures forall j :: 0 <= j < |buckets| ==>
              r[j].methodResults ==
                buckets[j].methodResults + (if buckets[j].contractContextIndex == key then [mr] else [])
    ensures key !in Keys(buckets) ==> r[|buckets|].methodResults == [mr]
    ensures TotalMethodResults(r) == TotalMethodResults(buckets) + 1
  {
    if key in Keys(buckets) then
      var j := BucketOf(buckets, key);
      var grown := buckets[j].(methodResults := buckets[j].methodResults + [mr]);
      TotalUpdate(buckets, j, grown);
      assert forall i :: 0 <= i < |buckets| && i != j ==> Keys(buckets)[i] != Keys(buckets)[j];
      buckets[j := grown]
    else
      var newBucket := ContractResults(key, [mr]);
      TotalAppend(buckets, newBucket);
      buckets + [newBucket]
  }

  /** Replacing one bucket changes the total by the difference in its length. */
  lemma {:induction false} TotalUpdate(buckets: seq<ContractResults>, j: nat, b: ContractResults)
    requires j < |buckets|
    ensures TotalMethodResults(buckets[j := b]) + |buckets[j].methodResults|
              == TotalMethodResults(buckets) + |b.methodResults|
  {
    if j > 0 {
      TotalUpdate(buckets[1..], j - 1, b);
      assert buckets[j := b][1..] == buckets[1..][j - 1 := b];
    }
  }

  /** Appending a bucket adds its length to the total. */
  lemma {:induction false} TotalAppend(buckets: seq<ContractResults>, b: ContractResults)
    ensures TotalMethodResults(buckets + [b]) == TotalMethodResults(buckets) + |b.methodResults|
  {
    if |buckets| == 0 {
      assert [b][1..] == [];
    } else {
      TotalAppend(buckets[1..], b);
      assert (buckets + [b])[1..] == buckets[1..] + [b];
    }
  }

  /** The first `n` slots regrouped. */
  function RegroupPrefix(slots: seq<RawResult>, calls: seq<AggregateCallContext>, n: nat): (r: seq<ContractResults>)
    requires n <= |slots| <= |calls|
    ensures Keys(r) == GroupOrder(calls, n)
    ensures forall j :: 0 <= j < |r| ==> r[j].methodResults == Routed(r[j].contractContextIndex, slots, calls, n)
    ensures TotalMethodResults(r) == n
  {
    if n == 0 then []
    else
      var earlier := RegroupPrefix(slots, calls, n - 1);
      var key := calls[n - 1].contractContextIndex;
      AddSlotRoutes(slots, calls, n, earlier);
      AddSlot(earlier, key, MethodResult(calls[n - 1].contractMethodIndex, slots[n - 1]))
  }

  /** Adding slot n - 1 to buckets that hold the routing of the first n - 1 slots
      gives buckets that hold the routing of the first n. */
  lemma AddSlotRoutes(slots: seq<RawResult>, calls: seq<AggregateCallContext>, n: nat, earlier: seq<ContractResults>)
    requires 0 < n <= |slots| <= |calls|
    requires Keys(earlier) == GroupOrder(calls, n - 1)
    requires forall j :: 0 <= j < |earlier| ==>
               earlier[j].methodResults == Routed(earlier[j].contractContextIndex, slots, calls, n - 1)
    ensures var key := calls[n - 1].contractContextIndex;
            var r := AddSlot(earlier, key, MethodResult(calls[n - 1].contractMethodIndex, slots[n - 1]));
            && Keys(r) == GroupOrder(calls, n)
            && forall j :: 0 <= j < |r| ==> r[j].methodResults == Routed(r[j].contractContextIndex, slots, calls, n)
  {
    AddSlotKeys(slots, calls, n, earlier);
    AddSlotBuckets(slots, calls, n, earlier);
  }

  /** The buckets' group indices after adding slot n - 1 are the first-appearance
      order of the first n calls. */
  lemma AddSlotKeys(slots: seq<RawResult>, calls: seq<AggregateCallContext>, n: nat, earlier: seq<ContractResults>)
    requires 0 < n <= |slots| <= |calls|
    requires Keys(earlier) == GroupOrder(calls, n - 1)
    ensures Keys(AddSlot(earlier, calls[n - 1].contractContextIndex,
                         MethodResult(calls[n - 1].contractMethodIndex, slots[n - 1])))
              == GroupOrder(calls, n)
  {
    var key := calls[n - 1].contractContextIndex;
    assert GroupOrder(calls, n) == if key in GroupOrder(calls, n - 1) then GroupOrder(calls, n - 1)
                                   else GroupOrder(calls, n - 1) + [key];
  }

  /** Every bucket after adding slot n - 1 holds the routing of the first n slots to its group. */
  lemma AddSlotBuckets(slots: seq<RawResult>, calls: seq<AggregateCallContext>, n: nat, earlier: seq<ContractResults>)
    requires 0 < n <= |slots| <= |calls|
    requires Keys(earlier) == GroupOrder(calls, n - 1)
    requires forall j :: 0 <= j < |earlier| ==>
               earlier[j].methodResults == Routed(earlier[j].contractContextIndex, slots, calls, n - 1)
    ensures var r := AddSlot(earlier, calls[n - 1].contractContextIndex,
                             MethodResult(calls[n - 1].contractMethodIndex, slots[n - 1]));
            forall j :: 0 <= j < |r| ==> r[j].methodResults == Routed(r[j].contractContextIndex, slots, calls, n)
  {
    var r := AddSlot(earlier, calls[n - 1].contractContextIndex,
                     MethodResult(calls[n - 1].contractMethodIndex, slots[n - 1]));
    forall j | 0 <= j < |r|
      ensures r[j].methodResults == Routed(r[j].contractContextIndex, slots, calls, n)
    {
      if j < |earlier| {
        ExistingBucketStep(slots, calls, n, earlier, j);
      } else {
        NewBucketStep(slots, calls, n, earlier);
      }
    }
  }

  /** An existing bucket j that held the routing of the first n - 1 slots holds the
      routing of the first n once slot n - 1 is added. */
  lemma ExistingBucketStep(slots: seq<RawResult>, calls: seq<AggregateCallContext>, n: nat,
                           earlier: seq<ContractResults>, j: nat)
    requires 0 < n <= |slots| <= |calls|
    requires Distinct(Keys(earlier)) && j < |earlier|
    requires earlier[j].methodResults == Routed(earlier[j].contractContextIndex, slots, calls, n - 1)
    ensures var r := AddSlot(earlier, calls[n - 1].contractContextIndex,
                             MethodResult(calls[n - 1].contractMethodIndex, slots[n - 1]));
            r[j].methodResults == Routed(r[j].contractContextIndex, slots, calls, n)
  {
    var r := AddSlot(earlier, calls[n - 1].contractContextIndex,
                     MethodResult(calls[n - 1].contractMethodIndex, slots[n - 1]));
    assert Keys(r)[j] == Keys(earlier)[j];
    RoutedStep(earlier[j].contractContextIndex, slots, calls, n);
  }

  /** The bucket opened for a group first seen at slot n - 1 holds that slot alone,
      which is the routing of the first n slots to that group. */
  lemma NewBucketStep(slots: seq<RawResult>, calls: seq<AggregateCallContext>, n: nat, earlier: seq<ContractResults>)
    requires 0 < n <= |slots| <= |calls|
    requires Keys(earlier) == GroupOrder(calls, n - 1)
    requires |earlier| < |AddSlot(earlier, calls[n - 1].contractContextIndex,
                                  MethodResult(calls[n - 1].contractMethodIndex, slots[n - 1]))|
    ensures var r := AddSlot(earlier, calls[n - 1].contractContextIndex,
                             MethodResult(calls[n - 1].contractMethodIndex, slots[n - 1]));
            r[|earlier|].methodResults == Routed(r[|earlier|].contractContextIndex, slots, calls, n)
  {
    var key := calls[n - 1].contractContextIndex;
    var r := AddSlot(earlier, key, MethodResult(calls[n - 1].contractMethodIndex, slots[n - 1]));
    assert |Keys(r)| == |r|;
    assert key !in Keys(earlier);
    assert Keys(r)[|earlier|] == key;
    NewGroupRouted(slots, calls, n);
  }

  /** Routing the first n slots adds slot n - 1 to the routing of the first n - 1
      exactly for the group its call carries. */
  lemma RoutedStep(key: nat, slots: seq<RawResult>, calls: seq<AggregateCallContext>, n: nat)
    requires 0 < n <= |slots| <= |calls|
    ensures Routed(key, slots, calls, n) ==
              Routed(key, slots, calls, n - 1)
              + (if calls[n - 1].contractContextIndex == key
                 then [MethodResult(calls[n - 1].contractMethodIndex, slots[n - 1])] else [])
  {
  }

  /** A group first seen at slot n - 1 is routed that slot alone. */
  lemma NewGroupRouted(slots: seq<RawResult>, calls: seq<AggregateCallContext>, n: nat)
    requires 0 < n <= |slots| <= |calls|
    requires calls[n - 1].contractContextIndex !in GroupOrder(calls, n - 1)
    ensures Routed(calls[n - 1].contractContextIndex, slots, calls, n)
              == [MethodResult(calls[n - 1].contractMethodIndex, slots[n - 1])]
  {
    RoutedAbsent(calls[n - 1].contractContextIndex, slots, calls, n - 1);
  }

  /** `buildUpAggregateResponse`: bucket j holds group GroupOrder[j], buckets come
      in order of first appearance, bucket contents are exactly the routed slots in
      slot order, and no slot is lost or duplicated. A reply with more slots than
      calls fails, since slot i is read through the tag of call i. */
  function BuildUpAggregateResponse(blockNumber: nat, returnData: seq<RawResult>, calls: seq<AggregateCallContext>)
    : (r: Result<AggregateResponse>)
    ensures r.Success? <==> |returnData| <= |calls|
    ensures r.Failure? ==> r.error == MalformedReply
    ensures r.Success? ==> r.value.blockNumber == blockNumber
    ensures r.Success? ==> Keys(r.value.results) == GroupOrder(calls, |returnData|)
    ensures r.Success? ==> forall j :: 0 <= j < |r.value.results| ==>
              r.value.results[j].methodResults ==
                Routed(r.value.results[j].contractContextIndex, returnData, calls, |returnData|)
    ensures r.Success? ==> TotalMethodResults(r.value.results) == |returnData|
  {
    if |returnData| > |calls| then Failure(MalformedReply)
    else Success(AggregateResponse(blockNumber, RegroupPrefix(returnData, calls, |returnData|)))
  }
}

=== FILE: routing.dfy ===
/** The routing invariant: when the batch comes from flattening, regrouping the
    reply hands every group exactly the slots at its calls' batch positions. */
module Routing {
  import opened Models
  import opened Flatten
  import opened Regroup

  function Clamp(x: int, hi: nat): (r: nat)
    ensures r <= hi
    ensures 0 <= x <= hi ==> r == x
    ensures hi <= x ==> r == hi
  {
    if x < 0 then 0 else if x > hi then hi else x
  }

  /** A position inside group a's range lies outside the range of any other group b. */
  lemma OutsideOtherGroup(groups: seq<ContractCallContext>, a: nat, x: nat, b: nat)
    requires a < |groups| && x < |groups[a].calls|
    requires b < |groups| && a != b
    ensures CallsBefore(groups, a) + x < CallsBefore(groups, b)
            || CallsBefore(groups, b) + |groups[b].calls| <= CallsBefore(groups, a) + x
  {
    if a < b {
      CallsBeforeMonotone(groups, a, b);
    } else {
      CallsBeforeMonotone(groups, b, a);
    }
  }

  /** Among the first n slots, the ones routed to group `key` are the slots at its
      calls' positions CallsBefore(key) + m, as many of them as lie below n. */
  lemma {:induction false} RoutedInBatch(groups: seq<ContractCallContext>, calls: seq<AggregateCallContext>,
                                         slots: seq<RawResult>, key: nat, n: nat)
    requires Tagged(groups, calls) && |slots| == |calls|
    requires key < |groups| && n <= |calls|
    ensures var c := Clamp(n - CallsBefore(groups, key), |groups[key].calls|);
            && |Routed(key, slots, calls, n)| == c
            && forall m :: 0 <= m < c ==>
                 Routed(key, slots, calls, n)[m] == MethodResult(m, slots[CallsBefore(groups, key) + m])
  {
    if n > 0 {
      RoutedInBatch(groups, calls, slots, key, n - 1);
      var e := calls[n - 1];
      assert Placed(groups, e, n - 1);
      if e.contractContextIndex != key {
        OutsideOtherGroup(groups, e.contractContextIndex, e.contractMethodIndex, key);
      }
    }
  }

  /** The buckets' group indices are exactly the groups that own a call below position n. */
  lemma GroupOrderMembers(groups: seq<ContractCallContext>, calls: seq<AggregateCallContext>, n: nat, x: nat)
    requires Tagged(groups, calls) && n <= |calls|
    ensures x in GroupOrder(calls, n) <==> x < |groups| && |groups[x].calls| > 0 && CallsBefore(groups, x) < n
  {
    if x in GroupOrder(calls, n) {
      MemberOwnsEarlyCall(groups, calls, n, x);
    }
    if x < |groups| && |groups[x].calls| > 0 && CallsBefore(groups, x) < n {
      EarlyCallOwnerMember(groups, calls, n, x);
    }
  }

  /** A group index among the buckets owns a call below position n. */
  lemma MemberOwnsEarlyCall(groups: seq<ContractCallContext>, calls: seq<AggregateCallContext>, n: nat, x: nat)
    requires Tagged(groups, calls) && n <= |calls|
    requires x in GroupOrder(calls, n)
    ensures x < |groups| && |groups[x].calls| > 0 && CallsBefore(groups, x) < n
  {
    var i :| 0 <= i < n && calls[i].contractContextIndex == x;
    assert Placed(groups, calls[i], i);
  }

  /** A group whose first call sits below position n is among the buckets. */
  lemma EarlyCallOwnerMember(groups: seq<ContractCallContext>, calls: seq<AggregateCallContext>, n: nat, x: nat)
    requires Tagged(groups, calls) && n <= |calls|
    requires x < |groups| && |groups[x].calls| > 0 && CallsBefore(groups, x) < n
    ensures x in GroupOrder(calls, n)
  {
    TaggedCovers(groups, calls, x, 0);
    var i := CallsBefore(groups, x);
    assert 0 <= i < n && calls[i].contractContextIndex == x;
  }

  /** The buckets' group indices come in increasing order. */
  lemma {:induction false} GroupOrderIncreasing(groups: seq<ContractCallContext>, calls: seq<AggregateCallContext>, n: nat)
    requires Tagged(groups, calls) && n <= |calls|
    ensures forall i, j :: 0 <= i < j < |GroupOrder(calls, n)| ==> GroupOrder(calls, n)[i] < GroupOrder(calls, n)[j]
  {
    if n > 0 {
      GroupOrderIncreasing(groups, calls, n - 1);
      var earlier := GroupOrder(calls, n - 1);
      var key := calls[n - 1].contractContextIndex;
      if key !in earlier {
        forall y | y in earlier
          ensures y < key
        {
          var i :| 0 <= i < n - 1 && calls[i].contractContextIndex == y;
          TaggedOrder(groups, calls, i, n - 1);
        }
        var order := GroupOrder(calls, n);
        assert order == earlier + [key];
        forall i, j | 0 <= i < j < |order|
          ensures order[i] < order[j]
        {
          assert order[i] == earlier[i] && order[i] in earlier;
        }
      }
    }
  }

  /** Bucket `b` is group b.contractContextIndex's share of the reply: one slot
      per call of that group, call m getting the slot at position CallsBefore + m. */
  predicate HoldsGroupSlots(groups: seq<ContractCallContext>, slots: seq<RawResult>, b: ContractResults) {
    && b.contractContextIndex < |groups|
    && |groups[b.contractContextIndex].calls| > 0
    && |b.methodResults| == |groups[b.contractContextIndex].calls|
    && CallsBefore(groups, b.contractContextIndex) + |b.methodResults| <= |slots|
    && forall m :: 0 <= m < |b.methodResults| ==>
         b.methodResults[m] == MethodResult(m, slots[CallsBefore(groups, b.contractContextIndex) + m])
  }

  lemma {:induction false} CallsWithinTotal(groups: seq<ContractCallContext>, g: nat)
    requires g < |groups|
    ensures CallsBefore(groups, g) + |groups[g].calls| <= TotalCalls(groups)
  {
    assert CallsBefore(groups, g + 1) == CallsBefore(groups, g) + |groups[g].calls|;
    if g + 1 < |groups| {
      CallsBeforeMonotone(groups, g + 1, |groups|);
    }
  }

  /** Over the whole reply, group `key` is routed one slot per call, in call order. */
  lemma RoutedWhole(groups: seq<ContractCallContext>, calls: seq<AggregateCallContext>,
                    slots: seq<RawResult>, key: nat)
    requires Tagged(groups, calls) && |slots| == |calls|
    requires key < |groups|
    ensures CallsBefore(groups, key) + |groups[key].calls| <= |slots|
    ensures |Routed(key, slots, calls, |slots|)| == |groups[key].calls|
    ensures forall m :: 0 <= m < |groups[key].calls| ==>
              Routed(key, slots, calls, |slots|)[m] == MethodResult(m, slots[CallsBefore(groups, key) + m])
  {
    CallsWithinTotal(groups, key);
    assert Clamp(|slots| - CallsBefore(groups, key), |groups[key].calls|) == |groups[key].calls|;
    RoutedInBatch(groups, calls, slots, key, |slots|);
  }

  lemma BucketHoldsGroupSlots(groups: seq<ContractCallContext>, calls: seq<AggregateCallContext>,
                              slots: seq<RawResult>, b: ContractResults)
    requires Tagged(groups, calls) && |slots| == |calls|
    requires b.contractContextIndex in GroupOrder(calls, |slots|)
    requires b.methodResults == Routed(b.contractContextIndex, slots, calls, |slots|)
    ensures HoldsGroupSlots(groups, slots, b)
  {
    GroupOrderMembers(groups, calls, |slots|, b.contractContextIndex);
    RoutedWhole(groups, calls, slots, b.contractContextIndex);
  }

  /** Slot i goes back to the call at batch position i. For a flattened batch and a
      reply with one slot per call, the buckets are the groups that have calls, in
      increasing group order; bucket g holds, for each call m of group g in order,
      the slot at position CallsBefore(g) + m; and a group without calls gets no bucket. */
  lemma SlotRoutesToItsCall(groups: seq<ContractCallContext>, calls: seq<AggregateCallContext>,
                            blockNumber: nat, slots: seq<RawResult>)
    requires Tagged(groups, calls) && |slots| == |calls|
    ensures BuildUpAggregateResponse(blockNumber, slots, calls).Success?
    ensures var r := BuildUpAggregateResponse(blockNumber, slots, calls).value.results;
            && (forall j :: 0 <= j < |r| ==> HoldsGroupSlots(groups, slots, r[j]))
            && (forall i, j :: 0 <= i < j < |r| ==> r[i].contractContextIndex < r[j].contractContextIndex)
            && (forall g: nat :: g < |groups| ==> (g in Keys(r) <==> |groups[g].calls| > 0))
  {
    var r := BuildUpAggregateResponse(blockNumber, slots, calls).value.results;
    var n := |slots|;
    GroupOrderIncreasing(groups, calls, n);
    forall j | 0 <= j < |r|
      ensures HoldsGroupSlots(groups, slots, r[j])
    {
      assert r[j].contractContextIndex == Keys(r)[j];
      BucketHoldsGroupSlots(groups, calls, slots, r[j]);
    }
    forall g: nat | g < |groups|
      ensures g in Keys(r) <==> |groups[g].calls| > 0
    {
      GroupOrderMembers(groups, calls, n, g);
      if |groups[g].calls| > 0 {
        CallsWithinTotal(groups, g);
      }
    }
  }
}

=== FILE: text.dfy ===
/** `String.prototype.trim`, which the output-type lookup applies to method names. */
module Text {

  /** The characters JavaScript's trim removes: white space and line terminators. */
  predicate IsWhitespace(c: char) {
    || c == ' ' || c == '\t' || c == '\n' || c == '\r'
    || c == '\U{000B}' || c == '\U{000C}' || c == '\U{00A0}' || c == '\U{FEFF}'
    || c == '\U{1680}' || ('\U{2000}' <= c <= '\U{200A}')
    || c == '\U{2028}' || c == '\U{2029}' || c == '\U{202F}' || c == '\U{205F}' || c == '\U{3000}'
  }

  /** Drops the leading white space. */
  function TrimStart(s: string): string {
    if |s| > 0 && IsWhitespace(s[0]) then TrimStart(s[1..]) else s
  }

  /** Drops the trailing white space. */
  function TrimEnd(s: string): string {
    if |s| > 0 && IsWhitespace(s[|s| - 1]) then TrimEnd(s[..|s| - 1]) else s
  }

  function Trim(s: string): string {
    TrimEnd(TrimStart(s))
  }

  /** TrimStart keeps the suffix of `s` that starts at its first non-white-space
      character. */
  lemma {:induction false} TrimStartKeepsSuffix(s: string)
    ensures |TrimStart(s)| <= |s| && TrimStart(s) == s[|s| - |TrimStart(s)|..]
    ensures forall i :: 0 <= i < |s| - |TrimStart(s)| ==> IsWhitespace(s[i])
    ensures |TrimStart(s)| > 0 ==> !IsWhitespace(TrimStart(s)[0])
  {
    if |s| > 0 && IsWhitespace(s[0]) {
      TrimStartKeepsSuffix(s[1..]);
    }
  }

  /** TrimEnd keeps the prefix of `s` that ends at its last non-white-space character. */
  lemma {:induction false} TrimEndKeepsPrefix(s: string)
    ensures |TrimEnd(s)| <= |s| && TrimEnd(s) == s[..|TrimEnd(s)|]
    ensures forall i :: |TrimEnd(s)| <= i < |s| ==> IsWhitespace(s[i])
    ensures |TrimEnd(s)| > 0 ==> !IsWhitespace(TrimEnd(s)[|TrimEnd(s)| - 1])
  {
    if |s| > 0 && IsWhitespace(s[|s| - 1]) {
      TrimEndKeepsPrefix(s[..|s| - 1]);
    }
  }

  /** Trim removes only white space from both ends, and what it keeps neither starts
      nor ends with white space: Trim(s) is s[a..b], with s[..a] and s[b..] all white
      space. */
  lemma TrimKeepsMiddle(s: string)
    ensures exists a, b :: && 0 <= a <= b <= |s|
                           && Trim(s) == s[a..b]
                           && (forall i :: 0 <= i < a ==> IsWhitespace(s[i]))
                           && (forall i :: b <= i < |s| ==> IsWhitespace(s[i]))
    ensures |Trim(s)| > 0 ==> !IsWhitespace(Trim(s)[0]) && !IsWhitespace(Trim(s)[|Trim(s)| - 1])
  {
    var t := TrimStart(s);
    TrimStartKeepsSuffix(s);
    TrimEndKeepsPrefix(t);
    var a := |s| - |t|;
    var b := a + |TrimEnd(t)|;
    assert t == s[a..];
    assert TrimEnd(t) == t[..b - a];
    assert t[..b - a] == s[a..b];
    forall i | b <= i < |s|
      ensures IsWhitespace(s[i])
    {
      assert s[i] == t[i - a];
    }
    assert 0 <= a <= b <= |s| && Trim(s) == s[a..b];
    if |Trim(s)| > 0 {
      assert Trim(s)[0] == t[0];
    }
  }

  /** A string is left alone by trim exactly when it neither starts nor ends with white space. */
  lemma TrimFixedPoint(s: string)
    ensures Trim(s) == s <==> (|s| == 0 || (!IsWhitespace(s[0]) && !IsWhitespace(s[|s| - 1])))
  {
    TrimKeepsMiddle(s);
    if |s| == 0 {
      assert TrimStart(s) == s;
      assert TrimEnd(s) == s;
    } else if !IsWhitespace(s[0]) && !IsWhitespace(s[|s| - 1]) {
      assert TrimStart(s) == s;
      assert TrimEnd(s) == s;
    }
  }

  /** Trimming twice is trimming once. */
  lemma TrimIdempotent(s: string)
    ensures Trim(Trim(s)) == Trim(s)
  {
    TrimKeepsMiddle(s);
    TrimFixedPoint(Trim(s));
  }
}

=== FILE: unpack.dfy ===
/** Unpacking, the body of `call` after the aggregate reply is back: each slot
    becomes a return entry (failed, decoded or raw), each bucket becomes its
    group's entry, and the entries are keyed by the groups' reference strings. */
module Unpack {
  import opened Values
  import opened Abi
  import opened Models

  /** `getReturnDataFromResult`: the bytes the slot carries, read from the field the
      entry point in use fills. */
  function GetReturnDataFromResult(tryAggregate: bool, result: RawResult): (data: Bytes)
    requires Shaped(tryAggregate, result)
    ensures result.Data? ==> data == result.bytes
    ensures result.Tried? ==> data == result.returnData
  {
    if tryAggregate then result.returnData else result.bytes
  }

  /** Tolerant mode and the aggregator reports the sub-call as reverted. */
  predicate SlotFailed(tryAggregate: bool, result: RawResult) {
    tryAggregate && result.Tried? && !result.success
  }

  function OutputTypes(codec: Codec, group: ContractCallContext, call: CallContext): Option<seq<AbiOutput>> {
    FindOutputTypesFromAbi(codec, group.abi, call.methodName)
  }

  /** Output types were found but the slot's bytes do not decode against them. */
  predicate DecodeFails(codec: Codec, group: ContractCallContext, call: CallContext, data: Bytes) {
    var outputTypes := OutputTypes(codec, group, call);
    WantsDecoding(outputTypes) && codec.decode(outputTypes.value, data).None?
  }

  /** The entry echoes the call's reference, method name and parameters. */
  predicate Echoes(entry: CallReturnContext, call: CallContext) {
    && entry.reference == call.reference
    && entry.methodName == call.methodName
    && entry.methodParameters == call.methodParameters
  }

  function FailedEntry(call: CallContext): CallReturnContext {
    CallReturnContext(Decoded([]), false, call.reference, call.methodName, call.methodParameters, false)
  }

  /** One iteration of the inner loop of `call`, for call m of group g. */
  function UnpackSlot(codec: Codec, tryAggregate: bool, g: nat, m: nat,
                      group: ContractCallContext, call: CallContext, result: RawResult)
    : (r: Result<CallReturnContext>)
    requires Shaped(tryAggregate, result)
    ensures r.Success? ==> Echoes(r.value, call)
    ensures SlotFailed(tryAggregate, result) ==> r == Success(FailedEntry(call))
    ensures r.Failure? <==>
              !tryAggregate && DecodeFails(codec, group, call, GetReturnDataFromResult(tryAggregate, result))
    ensures r.Failure? ==> r.error == DecodeError(g, m)
    ensures r.Success? ==>
              (r.value.success <==>
                 !SlotFailed(tryAggregate, result)
                 && !DecodeFails(codec, group, call, GetReturnDataFromResult(tryAggregate, result)))
    ensures r.Success? ==> (r.value.decoded <==> r.value.success && WantsDecoding(OutputTypes(codec, group, call)))
    ensures r.Success? && !r.value.success ==> r.value.returnValues == Decoded([])
    ensures r.Success? && r.value.decoded ==>
              && WantsDecoding(OutputTypes(codec, group, call))
              && codec.decode(OutputTypes(codec, group, call).value, GetReturnDataFromResult(tryAggregate, result)).Some?
              && r.value.returnValues ==
                   Decoded(FormatReturnValues(
                     codec.decode(OutputTypes(codec, group, call).value, GetReturnDataFromResult(tryAggregate, result)).value))
    ensures r.Success? && r.value.success && !r.value.decoded ==>
              r.value.returnValues == RawData(GetReturnDataFromResult(tryAggregate, result))
    ensures !tryAggregate && r.Success? ==> r.value.success
  {
    var outputTypes := OutputTypes(codec, group, call);
    if SlotFailed(tryAggregate, result) then Success(FailedEntry(call))
    else if WantsDecoding(outputTypes) then
      match codec.decode(outputTypes.value, GetReturnDataFromResult(tryAggregate, result))
      case Some(decoded) =>
        Success(CallReturnContext(Decoded(FormatReturnValues(decoded)), true,
                                  call.reference, call.methodName, call.methodParameters, true))
      case None =>
        if !tryAggregate then Failure(DecodeError(g, m)) else Success(FailedEntry(call))
    else
      Success(CallReturnContext(RawData(GetReturnDataFromResult(tryAggregate, result)), false,
                                call.reference, call.methodName, call.methodParameters, true))
  }

  /** Every bucket names a group of the request, every method result in it names a
      call of that group, and every slot has the shape of the entry point in use. */
  predicate BucketRoutable(tryAggregate: bool, groups: seq<ContractCallContext>, b: ContractResults) {
    && b.contractContextIndex < |groups|
    && forall k :: 0 <= k < |b.methodResults| ==>
         && b.methodResults[k].contractMethodIndex < |groups[b.contractContextIndex].calls|
         && Shaped(tryAggregate, b.methodResults[k].result)
  }

  predicate Routable(tryAggregate: bool, groups: seq<ContractCallContext>, buckets: seq<ContractResults>) {
    forall j :: 0 <= j < |buckets| ==> BucketRoutable(tryAggregate, groups, buckets[j])
  }

  /** The entry for method result k of bucket b, read against the call it names. */
  function SlotEntry(codec: Codec, tryAggregate: bool, groups: seq<ContractCallContext>,
                     b: ContractResults, k: nat): Result<CallReturnContext>
    requires BucketRoutable(tryAggregate, groups, b) && k < |b.methodResults|
  {
    var mr := b.methodResults[k];
    var group := groups[b.contractContextIndex];
    UnpackSlot(codec, tryAggregate, b.contractContextIndex, mr.contractMethodIndex,
               group, group.calls[mr.contractMethodIndex], mr.result)
  }

  /** The steps of the inner loop over bucket b, one per method result. */
  function SlotEntries(codec: Codec, tryAggregate: bool, groups: seq<ContractCallContext>, b: ContractResults)
    : (steps: seq<Result<CallReturnContext>>)
    requires BucketRoutable(tryAggregate, groups, b)
    ensures |steps| == |b.methodResults|
    ensures forall k :: 0 <= k < |steps| ==> steps[k] == SlotEntry(codec, tryAggregate, groups, b, k)
  {
    seq(|b.methodResults|, k requires 0 <= k < |b.methodResults| => SlotEntry(codec, tryAggregate, groups, b, k))
  }

  /** One iteration of the outer loop: the inner loop runs over the bucket and stops
      at the first decoding error; the group's entry pairs the group itself with one
      return entry per method result, in order. */
  function UnpackGroup(codec: Codec, tryAggregate: bool, groups: seq<ContractCallContext>, b: ContractResults)
    : (r: Result<ContractCallReturnContext>)
    requires BucketRoutable(tryAggregate, groups, b)
    ensures r.Success? <==>
              forall k :: 0 <= k < |b.methodResults| ==> SlotEntry(codec, tryAggregate, groups, b, k).Success?
    ensures r.Success? ==> r.value.originalContractCallContext == groups[b.contractContextIndex]
    ensures r.Success? ==> |r.value.callsReturnContext| == |b.methodResults|
    ensures r.Success? ==> forall k :: 0 <= k < |b.methodResults| ==>
              SlotEntry(codec, tryAggregate, groups, b, k) == Success(r.value.callsReturnContext[k])
    ensures r.Failure? ==> exists k :: && 0 <= k < |b.methodResults|
                                       && FirstFailure(SlotEntries(codec, tryAggregate, groups, b), k)
                                       && SlotEntry(codec, tryAggregate, groups, b, k) == Failure(r.error)
  {
    var entries :- CollectAll(SlotEntries(codec, tryAggregate, groups, b));
    Success(ContractCallReturnContext(groups[b.contractContextIndex], entries))
  }

  function ReferenceOf(entry: ContractCallReturnContext): string {
    entry.originalContractCallContext.reference
  }

  /** No entry after j among the first n has the same reference as entry j. */
  predicate LastWithReference(entries: seq<ContractCallReturnContext>, j: nat, n: nat)
    requires j < n <= |entries|
  {
    forall i :: j < i < n ==> ReferenceOf(entries[i]) != ReferenceOf(entries[j])
  }

  /** `results[reference] = entry` for the first n entries in order: one key per
      distinct reference, and a reference shared by several entries holds the last
      of them. */
  function StoreByReference(entries: seq<ContractCallReturnContext>, n: nat)
    : (r: map<string, ContractCallReturnContext>)
    requires n <= |entries|
    ensures forall key :: key in r <==> exists j :: 0 <= j < n && ReferenceOf(entries[j]) == key
    ensures forall j :: 0 <= j < n && LastWithReference(entries, j, n) ==> r[ReferenceOf(entries[j])] == entries[j]
  {
    if n == 0 then map[]
    else
      var earlier := StoreByReference(entries, n - 1);
      StoreStep(entries, n, earlier);
      earlier[ReferenceOf(entries[n - 1]) := entries[n - 1]]
  }

  /** Storing entry n - 1 over the store of the first n - 1 entries gives the store
      of the first n. */
  lemma StoreStep(entries: seq<ContractCallReturnContext>, n: nat, earlier: map<string, ContractCallReturnContext>)
    requires 0 < n <= |entries|
    requires forall key :: key in earlier <==> exists j :: 0 <= j < n - 1 && ReferenceOf(entries[j]) == key
    requires forall j :: 0 <= j < n - 1 && LastWithReference(entries, j, n - 1) ==>
               earlier[ReferenceOf(entries[j])] == entries[j]
    ensures var r := earlier[ReferenceOf(entries[n - 1]) := entries[n - 1]];
            && (forall key :: key in r <==> exists j :: 0 <= j < n && ReferenceOf(entries[j]) == key)
            && forall j :: 0 <= j < n && LastWithReference(entries, j, n) ==> r[ReferenceOf(entries[j])] == entries[j]
  {
    var key := ReferenceOf(entries[n - 1]);
    var r := earlier[key := entries[n - 1]];
    forall k
      ensures k in r <==> exists j :: 0 <= j < n && ReferenceOf(entries[j]) == k
    {
      if exists j :: 0 <= j < n && ReferenceOf(entries[j]) == k {
        var j :| 0 <= j < n && ReferenceOf(entries[j]) == k;
        if j < n - 1 {
          assert k in earlier;
        }
      }
      if k in r && k != key {
        assert k in earlier;
        var j :| 0 <= j < n - 1 && ReferenceOf(entries[j]) == k;
        assert 0 <= j < n;
      }
      if k == key {
        assert ReferenceOf(entries[n - 1]) == k;
      }
    }
    forall j | 0 <= j < n - 1 && LastWithReference(entries, j, n)
      ensures r[ReferenceOf(entries[j])] == entries[j]
    {
      assert ReferenceOf(entries[n - 1]) != ReferenceOf(entries[j]);
      assert LastWithReference(entries, j, n - 1);
    }
  }

  /** The steps of the outer loop, one group entry per bucket. */
  function GroupEntries(codec: Codec, tryAggregate: bool, groups: seq<ContractCallContext>, buckets: seq<ContractResults>)
    : (steps: seq<Result<ContractCallReturnContext>>)
    requires Routable(tryAggregate, groups, buckets)
    ensures |steps| == |buckets|
    ensures forall j :: 0 <= j < |steps| ==> steps[j] == UnpackGroup(codec, tryAggregate, groups, buckets[j])
  {
    seq(|buckets|, j requires 0 <= j < |buckets| => UnpackGroup(codec, tryAggregate, groups, buckets[j]))
  }

  /** The outer loop of `call`: the group entries, in bucket order, keyed by their
      references; any decoding error aborts the whole call. */
  function UnpackResults(codec: Codec, tryAggregate: bool, groups: seq<ContractCallContext>,
                         buckets: seq<ContractResults>)
    : (r: Result<map<string, ContractCallReturnContext>>)
    requires Routable(tryAggregate, groups, buckets)
    ensures r.Success? <==>
              forall j :: 0 <= j < |buckets| ==> GroupEntries(codec, tryAggregate, groups, buckets)[j].Success?
    ensures r.Failure? ==> exists j :: && 0 <= j < |buckets|
                                       && FirstFailure(GroupEntries(codec, tryAggregate, groups, buckets), j)
                                       && UnpackGroup(codec, tryAggregate, groups, buckets[j]) == Failure(r.error)
  {
    var entries :- CollectAll(GroupEntries(codec, tryAggregate, groups, buckets));
    Success(StoreByReference(entries, |entries|))
  }

  /** The keys of the result are exactly the references of the groups that own a bucket. */
  lemma UnpackResultsKeys(codec: Codec, tryAggregate: bool, groups: seq<ContractCallContext>,
                          buckets: seq<ContractResults>)
    requires Routable(tryAggregate, groups, buckets)
    ensures UnpackResults(codec, tryAggregate, groups, buckets).Success? ==>
              forall key :: key in UnpackResults(codec, tryAggregate, groups, buckets).value <==>
                exists j :: 0 <= j < |buckets| && groups[buckets[j].contractContextIndex].reference == key
  {
    var steps := GroupEntries(codec, tryAggregate, groups, buckets);
    if CollectAll(steps).Success? {
      var entries := CollectAll(steps).value;
      forall j | 0 <= j < |buckets|
        ensures ReferenceOf(entries[j]) == groups[buckets[j].contractContextIndex].reference
      {
        assert steps[j] == Success(entries[j]);
      }
    }
  }

  /** In tolerant mode unpacking never throws: a reverted sub-call or an undecodable
      reply becomes a failed entry instead. */
  lemma TolerantNeverFails(codec: Codec, groups: seq<ContractCallContext>, buckets: seq<ContractResults>)
    requires Routable(true, groups, buckets)
    ensures UnpackResults(codec, true, groups, buckets).Success?
  {
    forall j | 0 <= j < |buckets|
      ensures UnpackGroup(codec, true, groups, buckets[j]).Success?
    {
      forall k | 0 <= k < |buckets[j].methodResults|
        ensures SlotEntry(codec, true, groups, buckets[j], k).Success?
      {
      }
    }
  }

  /** In strict mode every entry of a group that unpacked is a success that echoes
      the call its method result names. */
  lemma StrictEntriesSucceed(codec: Codec, groups: seq<ContractCallContext>, b: ContractResults)
    requires BucketRoutable(false, groups, b)
    requires UnpackGroup(codec, false, groups, b).Success?
    ensures var entries := UnpackGroup(codec, false, groups, b).value.callsReturnContext;
            forall k :: 0 <= k < |entries| ==>
              && entries[k].success
              && Echoes(entries[k], groups[b.contractContextIndex].calls[b.methodResults[k].contractMethodIndex])
  {
    var entries := UnpackGroup(codec, false, groups, b).value.callsReturnContext;
    forall k | 0 <= k < |entries|
      ensures entries[k].success
      ensures Echoes(entries[k], groups[b.contractContextIndex].calls[b.methodResults[k].contractMethodIndex])
    {
      assert SlotEntry(codec, false, groups, b, k) == Success(entries[k]);
    }
  }
}

=== FILE: values.dfy ===
/** Shared value types: optional values, results carrying the library's errors,
    bytes, and the JSON-like values that method parameters and decoded returns are made of. */
module Values {

  /** A value that may be absent (`undefined` in the source). */
  datatype Option<+T> = None | Some(value: T)

  /** The outcome of an operation that may throw. */
  datatype Result<+T> = Success(value: T) | Failure(error: Error) {

    predicate IsFailure() {
      Failure?
    }

    function PropagateFailure<U>(): Result<U>
      requires Failure?
    {
      Failure(error)
    }

    function Extract(): T
      requires Success?
    {
      value
    }
  }

  /** Every way an aggregate call can fail. */
  datatype Error =
    | InvalidConfiguration
      // none of web3Instance, ethersProvider, nodeUrl was given to the constructor
    | UnsupportedNetwork(chainId: nat)
      // no aggregator address is known for the chain and no override was given
    | AbiParseError(contractContextIndex: nat)
      // the group's ABI could not be turned into an interface
    | EncodingError(contractContextIndex: nat, contractMethodIndex: nat)
      // a call's parameters could not be encoded against its ABI
    | DecodeError(contractContextIndex: nat, contractMethodIndex: nat)
      // a return buffer did not decode against its output types (strict mode only)
    | MalformedReply
      // the aggregator returned more slots than calls were sent
    | TransportError(message: string)
      // the node, the provider or the aggregator contract failed (a strict revert included)

  newtype byte = x: int | 0 <= x < 256

  type Bytes = seq<byte>

  /** A method parameter or a decoded return value. */
  datatype Value =
    | Num(n: int)
    | Flag(b: bool)
    | Str(s: string)
    | Blob(data: Bytes)
    | List(items: seq<Value>)

  /** JavaScript truthiness of an optional string: present and non-empty. */
  predicate HasText(s: Option<string>) {
    s.Some? && s.value != ""
  }

  /** A loop whose iterations may throw: the values of all steps in order, or the
      error of the first step that fails. */
  function CollectAll<T>(steps: seq<Result<T>>): (r: Result<seq<T>>)
    ensures r.Success? <==> forall i :: 0 <= i < |steps| ==> steps[i].Success?
    ensures r.Success? ==> |r.value| == |steps|
    ensures r.Success? ==> forall i :: 0 <= i < |steps| ==> steps[i] == Success(r.value[i])
    ensures r.Failure? ==> exists i :: 0 <= i < |steps| && FirstFailure(steps, i) && steps[i] == Failure(r.error)
  {
    if |steps| == 0 then Success([])
    else
      match steps[0]
      case Failure(e) =>
        assert FirstFailure(steps, 0);
        Failure(e)
      case Success(v) =>
        match CollectAll(steps[1..])
        case Failure(e) =>
          var i :| 0 <= i < |steps[1..]| && FirstFailure(steps[1..], i) && steps[1..][i] == Failure(e);
          assert FirstFailure(steps, i + 1);
          Failure(e)
        case Success(vs) => Success([v] + vs)
  }

  /** Step i fails and every step before it succeeds. */
  predicate FirstFailure<T>(steps: seq<Result<T>>, i: nat) {
    && i < |steps|
    && steps[i].Failure?
    && forall k :: 0 <= k < i ==> steps[k].Success?
  }
}
